=== FILE: README.md ===
# Noted: the decisions inside the client's handlers

Noted is a notes marketplace for Binus students. It is a Next.js client over
Firebase Auth, Firestore and Storage. Every persistence and auth step is a
direct SDK call. Around those calls, the page handlers make small
deterministic decisions. This project states them as pure Dafny functions
over immutable datatypes and proves properties of them:

- **Reviews** (`reviews.dfy`). The running average written to a note after
  a review is added or deleted. The local updates of the review list and of
  each review's replies.
- **Catalog** (`note.dfy`, `my_notes.dfy`, `dashboard.dfy`):
  - the case-insensitive search over title and course;
  - the 'Trending' and 'Top Rated' chips;
  - the empty-state choice of the "My Notes" page;
  - the greeting name derived from an email.
- **Transactions** (`transactions.dfy`). The purchase-to-note join, which
  keeps order and drops purchases whose note is gone.
- **Forms** (`upload.dfy`, `signup.dfy`, `login.dfy`, `account.dfy`,
  `create_profile.dfy`). The validators, the error-code-to-message maps, the
  records written, and the order of the remote steps.
- **Route guards** (`layout.dfy`, `create_profile.dfy`). The redirect and
  render decisions of the dashboard layout and the create-profile page.

Shared vocabulary lives in `common.dfy`: optional values, the user, the
profile, thrown values, outcomes, routes and guard inputs. The JavaScript
string and array operations the handlers use are in `strings.dfy` and
`seqs.dfy`.

Every remote call is an input to the handler that makes it: a `bool`, an
`Option` or an `Outcome` saying how it ended. A handler returns the new
local state, the remote effects that took effect (in order), and the
navigation it issued. The clock (`Date.now()`, `Timestamp.now()`,
`new Date()`) is a parameter. `confirm()` answers are parameters too.

Some modelling choices:

- JavaScript compares objects with `!==` by identity, so a `Timestamp`
  carries an `objectId`. Local reply deletion compares those ids.
- Note ratings are whole numbers of tenths of a star. Every rating the
  client writes is rounded to one decimal, and a new note starts at 0.
- `userProfile` is read by several pages but `AuthContext.tsx` does not
  provide it (src/app/context/AuthContext.tsx:8-12, 40). It is therefore a
  free input everywhere.

## Model

| member | source | states |
|---|---|---|
| Reviews.NewAverage | src/app/components/ReviewsSection.tsx:142-165 | In add mode the average is the mean of the held ratings with the new one. In remove mode it is (total − r)/(count − 1) for two or more held reviews, and 0 for one or none. |
| Reviews.SumRatingsIsTotal | src/app/components/ReviewsSection.tsx:149-157 | The `reduce` left fold over the held reviews equals the sum of their ratings. |
| Reviews.RemoveFromShortListIsZero | src/app/components/ReviewsSection.tsx:153-159 | Removing from a list of zero or one held reviews writes 0, whatever rating is passed; a named corollary of the remove-mode clause of `NewAverage`. |
| Reviews.RemoveReview | src/app/components/ReviewsSection.tsx:134 | The list after a delete is a subsequence of the list before. A review stays exactly when its id differs from the deleted one, with every copy of it kept. The list shrinks by exactly the number of reviews carrying the id. |
| Reviews.RemoveReviewTotal | src/app/components/ReviewsSection.tsx:134-156 | Deleting a review held once shortens the list by one and lowers the total by that review's rating. |
| Reviews.RemoveIsMeanAfterDelete | src/app/components/ReviewsSection.tsx:131-159 | Deleting a review held once, passing its own rating, writes the mean of the list shown afterwards. |
| Reviews.AddThenRemoveRestores | src/app/components/ReviewsSection.tsx:149-159 | Adding a review and then deleting it with the same rating writes the average the list had before. |
| Reviews.DeleteThenAddRestores | src/app/components/ReviewsSection.tsx:149-159 | Deleting a review held once and then adding one with the same rating writes the average the list had before the delete. |
| Reviews.TotalBounds | src/app/components/ReviewsSection.tsx:239 | With ratings from 1 to 5, the total lies between the count and five times the count. |
| Reviews.MeanBounds | src/app/components/ReviewsSection.tsx:159-239 | With every rating one of the five star choices, the average of a non-empty list lies between 1 and 5. |
| Reviews.RatioBounds | src/app/components/ReviewsSection.tsx:159 | A total between n and 5n over n > 0 items averages between 1 and 5. |
| Reviews.RatingScenario | src/app/components/ReviewsSection.tsx:142-165 | Worked example: reviews of 5 then 3, then the 5 deleted, write averages 5, 4 and 3. |
| Reviews.AuthorName | src/app/components/ReviewsSection.tsx:89-174 | The stored name is the profile's display name if non-empty, else the non-empty text before the first '@' of the email, else the fallback. |
| Reviews.AppendReply | src/app/components/ReviewsSection.tsx:187-192 | Only reviews with the given id change: the reply goes at the end of their replies. Length and order of the list, and every other review, are kept. |
| Reviews.AppendReplyCount | src/app/components/ReviewsSection.tsx:187-192 | Adding a reply raises the number of held replies by exactly the number of reviews with that id. |
| Reviews.DropReply | src/app/components/ReviewsSection.tsx:212-220 | Only reviews with the given id change. Their replies are filtered by the target's `createdAt` identity. |
| Reviews.DropReplyRemovesAllMatches | src/app/components/ReviewsSection.tsx:216 | In a matching review, a reply survives exactly when its `createdAt` is not the target's, so every match goes. Order is kept and the list never grows. |
| Reviews.SubmitReview | src/app/components/ReviewsSection.tsx:79-120 | A missing user or a blank comment changes nothing and writes nothing. On success the stored document carries the name `displayName` or email prefix or "Anonymous", a server timestamp and no replies. The review shown locally goes in front with the name `displayName` or "You", the client time and no replies. The form resets to 5 stars and an empty comment, and the written rating is the mean of the list shown. If only the add succeeded, the document alone is written and nothing changes locally. |
| Reviews.DeleteReview | src/app/components/ReviewsSection.tsx:123-139 | Without confirmation or after a failed delete nothing changes. On success the list becomes `RemoveReview` of the held list: every review with another id remains, every copy, in order, and the form is kept. The delete is sent and then the note's rating is written with the remove-mode average of the passed rating; after a failed rating write only the delete took effect. When the deleted review was held once with the given rating, the written rating is the mean of the remaining list. |
| Reviews.SubmitReply | src/app/components/ReviewsSection.tsx:168-200 | A missing user, blank reply text or failed update changes nothing. On success the reply (fallback name "User") is appended to matching reviews and the reply form closes. |
| Reviews.DeleteReply | src/app/components/ReviewsSection.tsx:202-225 | Without confirmation or after a failed removal nothing changes. Otherwise replies are dropped locally by `createdAt` and one removal is sent. |
| Strings.TrimEmptyIff | src/app/components/ReviewsSection.tsx:81-170 | `trim()` yields the empty string exactly when every character is ECMAScript white space. |
| Notes.ThresholdsCoincide | src/app/dashboard/my-notes/page.tsx:66-67 | On one-decimal ratings, `rating > 4.8` and `rating >= 4.9` select the same notes. |
| MyNotes.SearchKeepsIff | src/app/dashboard/my-notes/page.tsx:58-61 | The search stage keeps a note exactly when the query is empty or its lower-cased form occurs in the lower-cased title or course. |
| MyNotes.ChipKeepsCases | src/app/dashboard/my-notes/page.tsx:63-69 | 'All' and unknown labels keep every note. 'Trending' keeps ratings above 4.8 and 'Top Rated' those from 4.9, which are the same notes. |
| MyNotes.FilteredNotes | src/app/dashboard/my-notes/page.tsx:54-70 | The result is a subsequence of the user's notes. It holds exactly the notes that match the query and pass the chip, each with all its copies in the input. |
| MyNotes.NoQueryNoChipKeepsAll | src/app/dashboard/my-notes/page.tsx:58-68 | An empty query with a chip other than 'Trending' or 'Top Rated' shows every note in order. |
| MyNotes.StagesCommute | src/app/dashboard/my-notes/page.tsx:54-70 | Running the chip stage before the search stage gives the same list. |
| MyNotes.TrendingIsTopRated | src/app/dashboard/my-notes/page.tsx:66-67 | 'Trending' and 'Top Rated' show the same list for every query. |
| MyNotes.OfferedChipsShowTwoLists | src/app/dashboard/my-notes/page.tsx:21-69 | The three offered chips show at most two different lists: the search result and its top-rated part. |
| MyNotes.PageView | src/app/dashboard/my-notes/page.tsx:97-124 | Loading shows the loading view, and a load error shows that error. Once loaded without error: "no uploads" exactly when the user has no notes; otherwise "no notes found" exactly when no note passes both stages; otherwise the grid of exactly the filtered notes. |
| Dashboard.FilteredNotes | src/app/dashboard/page.tsx:50-54 | The result is a subsequence of the catalog. 'Trending' keeps exactly ratings above 4.8 and 'Top Rated' exactly those from 4.9, each kept note with all its copies. |
| Dashboard.OtherChipsKeepAll | src/app/dashboard/page.tsx:14-54 | 'All', 'Newest', 'For You' and every other label keep the whole catalog in order. |
| Dashboard.OfferedChipsKeepAll | src/app/dashboard/page.tsx:14-54 | Every offered chip other than 'Trending' and 'Top Rated' shows the whole catalog. |
| Dashboard.SameChipsAsMyNotes | src/app/dashboard/page.tsx:50-54 | The dashboard's chip test agrees with the "My Notes" page's on every label. |
| Dashboard.FindName | src/app/dashboard/page.tsx:56-83 | "Guest" without a user or a non-empty email. Otherwise it looks at the text before the first '@'. With a '.' there, the result is the first two '.'-separated pieces capitalised and joined by a space; without one, the whole capitalised text. |
| Dashboard.FindNameFallbackUnreachable | src/app/dashboard/page.tsx:65-82 | The local part always splits into at least one piece, and into itself when it has no '.', so the "User" fallback is never reached. |
| Dashboard.FirstLastGreeting | src/app/dashboard/page.tsx:64-72 | An address first.last@domain, with no '.' or '@' inside the names, greets as the two names capitalised and joined by a space. |
| Dashboard.SinglePartGreeting | src/app/dashboard/page.tsx:76-79 | An address name@domain with no '.' in the name greets as the capitalised name. |
| Strings.FirstSeparator | src/app/dashboard/page.tsx:64-65 | Cutting a + c + b at the first c, where a has no c, gives back a and b. |
| Strings.Capitalize | src/app/dashboard/page.tsx:71 | Length is kept, the first character is upper-cased and the rest is unchanged; "" maps to "". |
| Strings.JoinSplit | src/app/dashboard/page.tsx:64-65 | Joining the pieces of a one-character split with the separator gives the input back. |
| Strings.SplitJoin | src/app/dashboard/page.tsx:64-65 | Splitting the join of separator-free pieces gives the pieces back. |
| Transactions.Combine | src/app/dashboard/transactions/page.tsx:51-56 | The combined record has the note's fields plus `id`, `purchaseId` and `purchasedAt`, which come from the purchase and override same-named note fields. |
| Transactions.JoinIsFilterThenCombine | src/app/dashboard/transactions/page.tsx:44-60 | The join keeps the purchases whose note exists, in order, and combines each with its note. |
| Transactions.AllNotesPresent | src/app/dashboard/transactions/page.tsx:50-56 | When every note exists, each purchase yields one transaction at its own position. |
| Transactions.NoNotesPresent | src/app/dashboard/transactions/page.tsx:57-60 | When no note exists, the transaction list is empty. |
| Transactions.JoinAppend | src/app/dashboard/transactions/page.tsx:44-60 | The join of two runs of purchases is the two joins concatenated. |
| Transactions.JoinOrigins | src/app/dashboard/transactions/page.tsx:50-56 | Every transaction comes from a purchase of the snapshot whose note exists. |
| Transactions.JoinKeepsOrder | src/app/dashboard/transactions/page.tsx:31-60 | A newest-first snapshot yields newest-first transactions. |
| Transactions.QueryThenJoin | src/app/dashboard/transactions/page.tsx:31-60 | On the query's snapshot, every transaction is one of the user's own purchases, and the list is newest first. |
| Transactions.FetchTransactions | src/app/dashboard/transactions/page.tsx:24-107 | An empty snapshot gives an empty list. A failed query or note read sets the load error. Otherwise the list is the join and never longer than the purchases. Without a user nothing changes; once a user is present, loading ends in every case. |
| Upload.FileChange | src/app/dashboard/upload/page.tsx:24-34 | A chosen file is kept exactly when its type is "application/pdf", which also clears the error. Anything else clears the selection and sets the invalid-type error. No file changes nothing. Title, course, price, upload flag and success message are kept. |
| Upload.StampThenName | src/app/dashboard/upload/page.tsx:48 | A digit stamp joined to a file name by '_' splits back into both at the first '_'. |
| Upload.StoragePathParts | src/app/dashboard/upload/page.tsx:48 | For a uid and file name without '/', the storage path has the segments "notes", the uid, and stamp + '_' + name. The time stamp and the file name can be read back from the last segment. |
| Upload.Submit | src/app/dashboard/upload/page.tsx:36-75 | A missing user, file, title, course or price sets the error and does nothing remote. A failed upload writes nothing. After a successful upload the file alone is stored if the URL or the record fails. When all three steps succeed, the file is stored at the stamped path and then the record is written: rating 0, the user's uid and email, the download URL and a server timestamp. The redirect happens exactly then. Once the guard passes, title, course, price and the chosen file are kept, so a failed upload can be retried. |
| Signup.BinusEmailIff | src/app/signup/page.tsx:20 | An email passes exactly when it is some text followed by "@binus.ac.id". |
| Signup.DomainCheckExamples | src/app/signup/page.tsx:20 | The check is case-sensitive and looks only at the suffix: an upper-case domain fails and an extra '@' passes. |
| Signup.ErrorMessage | src/app/signup/page.tsx:30-43 | 'auth/email-already-in-use' maps to the already-registered message, any other code to the generic failure, and a value without a code to the unexpected-error message. |
| Signup.SignUp | src/app/signup/page.tsx:16-50 | A non-Binus email sets the domain error and returns before loading is set or an account is attempted. Otherwise loading ends and the route with path "/login" is opened whether creation succeeded or not. |
| Login.ErrorMessage | src/app/login/page.tsx:25-41 | The three credential codes map to the invalid-email-or-password message, any other code to the failed-to-log-in message, and a value without a code to the unexpected-error message. |
| Login.HandleLogin | src/app/login/page.tsx:16-46 | The error is cleared and loading set first; loading is reset on every outcome. /dashboard is opened exactly after a successful sign-in, and its route has path "/dashboard". |
| Account.PasswordErrorMessage | src/app/dashboard/account/page.tsx:109-123 | Only SDK errors are classified by code: wrong password or invalid credential, weak password, others. Anything else gets the unexpected-error message. |
| Account.CodedValueIsUnexpected | src/app/dashboard/account/page.tsx:111-123 | A plain object with a code is not an SDK error, so it gets the unexpected-error message. |
| Account.Prefill | src/app/dashboard/account/page.tsx:54-59 | A known profile fills name and major; nothing else changes. |
| Account.UpdateProfile | src/app/dashboard/account/page.tsx:62-88 | Without a user or profile nothing happens. Otherwise both profile messages are cleared, and the document update writes exactly `displayName` and `major`. When both succeed, the document update is followed by the auth profile update with the submitted name, and only the success message is set. A failed auth update leaves the document update alone and sets only the error; a failed document write writes nothing and sets only the error. Name, major and every password field are kept. |
| Account.ChangePassword | src/app/dashboard/account/page.tsx:91-125 | Without a user or email nothing happens. Otherwise both password messages are cleared first. The update runs only after re-authentication succeeded. The password fields are cleared only on success, and each failure gets its classified message. On success only the success message and the two password fields change; the profile half of the state is kept on every path. |
| Layout.LayoutRedirect | src/app/dashboard/layout.tsx:20-29 | While loading there is no redirect. Once loaded, no user goes to /login and a user without a profile to /create-profile. With both there is no redirect. |
| Layout.LayoutScreen | src/app/dashboard/layout.tsx:31-41 | Children render exactly when loaded with a user and a profile. |
| Layout.RenderXorRedirect | src/app/dashboard/layout.tsx:20-41 | The layout never renders and redirects at once. A redirect only happens once loaded. The loading screen without a redirect means still loading. |
| CreateProfile.ProfileRedirect | src/app/create-profile/page.tsx:46-56 | While loading there is no redirect. Once loaded, no user goes to /login, a user with a profile to /dashboard, and a user without a profile stays. |
| CreateProfile.ProfileScreen | src/app/create-profile/page.tsx:101-108 | The form is shown exactly when loaded with a user and without a profile. |
| CreateProfile.GuardsAgree | src/app/create-profile/page.tsx:46-108 | No state has this page send the user to /dashboard while the layout sends them here. Whenever one guard redirects to the other page, that page renders. Once loaded, exactly one of the two pages renders, or both send the user to /login. |
| CreateProfile.Submit | src/app/create-profile/page.tsx:58-99 | No user, or an empty name or major, sets its error and writes nothing. A failed auth update writes nothing. A failed document write leaves only the auth update. When both succeed, the auth name is updated, then the profile document with the user's uid and email, the submitted name and major and the client time is written. The error is cleared and /dashboard is opened. The entered name and major are kept on every path. |

## Left out

- The Firebase SDK calls are not modelled: document reads and writes, `arrayUnion`/`arrayRemove`, storage upload, download URLs, and auth sign-in, sign-up, re-authentication and profile updates. Only how each call ended is modelled, as an input.
- The server-side query (`where` plus `orderBy`) of the transaction page is stated as a property of the returned snapshot (`Transactions.IsPurchaseQuery`), not computed.
- The note rating is updated by a read-modify-write from the client's list. The race between users reviewing the same note at once is a concurrency matter; only the sequential computation is modelled.
- `Reviews.NewAverage` does not model `toFixed(1)` rounding or floating-point division. The average is an exact `real`, so a written rating of `Number(avg.toFixed(1))` is not reproduced.
- `Upload.Submit` keeps the price as the form's text; the `Number(price)` conversion is floating-point parsing and is left out.
- `Strings.Lower` and `Strings.UpperChar` map only ASCII letters. Full Unicode case mapping is library behaviour.
- Currency and date formatting (`Intl.NumberFormat`, `toLocaleDateString`) is locale-dependent library behaviour.
- `confirm()` dialogs, the two-second `setTimeout` before the upload redirect, `isSubmitting` flags and React effect plumbing are left out. The handlers are functions from the old state to the new one, with the dialog answer as an input.
- The data loads of the review, dashboard and "My Notes" pages (`fetchReviews`, `fetchNotes`, `fetchMyNotes`) are SDK reads whose results the model takes as the given lists.
- The list of majors offered on the account page is presentation data; no handler checks the chosen major against it.
- The presentation components, `AuthContext.tsx`, and the mock note list carry no logic of the core.

=== FILE: account.dfy ===
/** The account page: the profile update (name and major) and the password
    change with re-authentication and its error classification. */
module Account {
  import opened Common

  const IncorrectPassword := "Incorrect current password."
  const WeakPassword := "New password must be at least 6 characters."
  const ChangeFailed := "Failed to change password. Please try again."
  const Unexpected := "An unexpected error occurred."
  const PasswordChanged := "Password changed successfully!"
  const ProfileUpdated := "Profile updated successfully!"
  const ProfileFailed := "Failed to update profile. Please try again."

  /** The message for a failed password change: only instances of the SDK's
      error class are classified by code. */
  function PasswordErrorMessage(err: Thrown): (m: string)
    ensures err.FirebaseError? && (err.code == "auth/wrong-password" || err.code == "auth/invalid-credential") ==> m == IncorrectPassword
    ensures err.FirebaseError? && err.code == "auth/weak-password" ==> m == WeakPassword
    ensures err.FirebaseError? && err.code !in {"auth/wrong-password", "auth/invalid-credential", "auth/weak-password"} ==> m == ChangeFailed
    ensures !err.FirebaseError? ==> m == Unexpected
  {
    match err
    case FirebaseError(code) =>
      if code == "auth/wrong-password" || code == "auth/invalid-credential" then IncorrectPassword
      else if code == "auth/weak-password" then WeakPassword
      else ChangeFailed
    case _ => Unexpected
  }

  /** A plain object carrying a code is not an instance of the SDK's error
      class, so even a wrong-password code yields the unexpected-error message. */
  lemma CodedValueIsUnexpected(code: string)
    ensures PasswordErrorMessage(CodedValue(code)) == Unexpected
    ensures PasswordErrorMessage(FirebaseError("auth/wrong-password")) != Unexpected
  {
  }

  /** The page state the two handlers change. */
  datatype AccountState = AccountState(
    fullName: string,
    major: string,
    currentPassword: string,
    newPassword: string,
    profileMessage: Option<string>,
    profileError: Option<string>,
    passwordMessage: Option<string>,
    passwordError: Option<string>)

  /** The effect that fills the form from the profile once it is known;
      `displayName || ''` and `major || ''` leave a string as it is. */
  function Prefill(s: AccountState, profile: Option<Profile>): (r: AccountState)
    ensures profile.None? ==> r == s
    ensures profile.Some? ==> r.fullName == profile.value.displayName && r.major == profile.value.major
    ensures r.currentPassword == s.currentPassword && r.newPassword == s.newPassword
    ensures r.profileMessage == s.profileMessage && r.passwordMessage == s.passwordMessage
    ensures r.profileError == s.profileError && r.passwordError == s.passwordError
  {
    if profile.Some? then s.(fullName := OrElse(Some(profile.value.displayName), ""), major := OrElse(Some(profile.value.major), ""))
    else s
  }

  /** A remote call that took effect. */
  datatype Effect =
    | UserDocUpdated(uid: string, fields: map<string, string>)
    | AuthProfileUpdated(displayName: string)
    | Reauthenticated(email: string, password: string)
    | PasswordUpdated(newPassword: string)

  /** One handler run: the state after the synchronous prefix, the final
      state, and the remote calls that took effect. */
  datatype Run = Run(start: AccountState, final: AccountState, effects: seq<Effect>)

  /** `handleProfileUpdate`; `docWritten` and `authWritten` are the outcomes
      of the profile document update and the auth profile update. Without a
      user or a profile nothing happens; otherwise both messages are cleared
      and the document update writes exactly the display name and the major. */
  function UpdateProfile(
    s: AccountState, user: Option<User>, profile: Option<Profile>,
    docWritten: Outcome, authWritten: Outcome): (r: Run)
    ensures user.None? || profile.None? ==> r == Run(s, s, [])
    ensures user.Some? && profile.Some? ==>
              && r.start == s.(profileMessage := None, profileError := None)
              && (r.final.profileMessage == Some(ProfileUpdated) <==> docWritten.Succeeded? && authWritten.Succeeded?)
              && (r.final.profileError == Some(ProfileFailed) <==> !(docWritten.Succeeded? && authWritten.Succeeded?))
              && (docWritten.Threw? ==> r.effects == [])
              && (docWritten.Succeeded? && authWritten.Succeeded? ==>
                    && r.effects == [UserDocUpdated(user.value.uid, map["displayName" := s.fullName, "major" := s.major]), AuthProfileUpdated(s.fullName)]
                    && r.final == r.start.(profileMessage := Some(ProfileUpdated)))
              && (docWritten.Succeeded? && authWritten.Threw? ==>
                    && r.effects == [UserDocUpdated(user.value.uid, map["displayName" := s.fullName, "major" := s.major])]
                    && r.final == r.start.(profileError := Some(ProfileFailed)))
              && (docWritten.Threw? ==> r.final == r.start.(profileError := Some(ProfileFailed)))
    ensures r.final.passwordMessage == s.passwordMessage && r.final.passwordError == s.passwordError
    ensures r.final.currentPassword == s.currentPassword && r.final.newPassword == s.newPassword
    ensures r.final.fullName == s.fullName && r.final.major == s.major
  {
    if user.None? || profile.None? then Run(s, s, [])
    else
      var start := s.(profileMessage := None, profileError := None);
      var failed := start.(profileError := Some(ProfileFailed));
      if docWritten.Threw? then Run(start, failed, [])
      else
        var docUpdate := UserDocUpdated(user.value.uid, map["displayName" := s.fullName, "major" := s.major]);
        if authWritten.Threw? then Run(start, failed, [docUpdate])
        else Run(start, start.(profileMessage := Some(ProfileUpdated)), [docUpdate, AuthProfileUpdated(s.fullName)])
  }

  /** `handlePasswordChange`; `reauthenticated` and `updated` are the outcomes
      of the re-authentication and of the password update. Without a user or
      an email nothing happens; otherwise both messages are cleared first, the
      update is attempted only after re-authentication succeeded, and the
      password fields are cleared only on success. */
  function ChangePassword(s: AccountState, user: Option<User>, reauthenticated: Outcome, updated: Outcome): (r: Run)
    ensures user.None? || user.value.email.None? || user.value.email.value == "" ==> r == Run(s, s, [])
    ensures user.Some? && user.value.email.Some? && user.value.email.value != "" ==>
              && r.start == s.(passwordMessage := None, passwordError := None)
              && (reauthenticated.Threw? ==>
                    && r.effects == []
                    && r.final == r.start.(passwordError := Some(PasswordErrorMessage(reauthenticated.error))))
              && (reauthenticated.Succeeded? && updated.Threw? ==>
                    && r.effects == [Reauthenticated(user.value.email.value, s.currentPassword)]
                    && r.final == r.start.(passwordError := Some(PasswordErrorMessage(updated.error))))
              && (reauthenticated.Succeeded? && updated.Succeeded? ==>
                    && r.effects == [Reauthenticated(user.value.email.value, s.currentPassword), PasswordUpdated(s.newPassword)]
                    && r.final == r.start.(passwordMessage := Some(PasswordChanged), currentPassword := "", newPassword := ""))
    ensures r.final.fullName == s.fullName && r.final.major == s.major
    ensures r.final.profileMessage == s.profileMessage && r.final.profileError == s.profileError
    ensures forall k :: 0 <= k < |r.effects| && r.effects[k].PasswordUpdated? ==> k == 1 && r.effects[0].Reauthenticated?
    ensures r.final.currentPassword == "" <==> (r.effects != [] && r.effects[|r.effects| - 1].PasswordUpdated?) || s.currentPassword == ""
  {
    if user.None? || user.value.email.None? || user.value.email.value == "" then Run(s, s, [])
    else
      var start := s.(passwordMessage := None, passwordError := None);
      var email := user.value.email.value;
      match reauthenticated
      case Threw(e) => Run(start, start.(passwordError := Some(PasswordErrorMessage(e))), [])
      case Succeeded =>
        match updated
        case Threw(e) => Run(start, start.(passwordError := Some(PasswordErrorMessage(e))), [Reauthenticated(email, s.currentPassword)])
        case Succeeded =>
          Run(start, start.(passwordMessage := Some(PasswordChanged), currentPassword := "", newPassword := ""),
              [Reauthenticated(email, s.currentPassword), PasswordUpdated(s.newPassword)])
  }
}

=== FILE: common.dfy ===
/** Shared vocabulary of the Noted client: optional values, the signed-in user,
    the profile document, values caught by `catch`, timestamps and routes. */
module Common {

  /** A field or variable typed `T | null` or optional in the client: `None`
      is the absent value, `null` and `undefined` alike. */
  datatype Option<+T> = None | Some(value: T)

  /** JavaScript's `a || b` where `a` is an optional string: a missing or empty
      string is falsy, so `b` is used in its place. */
  function OrElse(a: Option<string>, b: string): (r: string)
    ensures a.Some? && a.value != "" ==> r == a.value
    ensures (a.None? || a.value == "") ==> r == b
  {
    if a.Some? && a.value != "" then a.value else b
  }

  /** The signed-in account as the auth service reports it; `email` may be null. */
  datatype User = User(uid: string, email: Option<string>)

  /** The profile document `users/<uid>`. */
  datatype Profile = Profile(displayName: string, major: string)

  /** A Timestamp object. JavaScript compares objects with `===` by identity, so
      `objectId` stands for that identity; `millis` is the instant it denotes. */
  datatype Timestamp = Timestamp(objectId: nat, millis: int)

  /** The placeholder `serverTimestamp()`, or a concrete time chosen by the client. */
  datatype WrittenTime = ServerTime | ClientTime(at: Timestamp)

  /** A value caught by a `catch` clause: an instance of the SDK's FirebaseError
      (which carries a code), some other object with a `code` property, or
      anything else. */
  datatype Thrown = FirebaseError(code: string) | CodedValue(code: string) | Uncoded {

    /** `err && typeof err === 'object' && 'code' in err` */
    predicate HasCode() {
      FirebaseError? || CodedValue?
    }
  }

  /** How an awaited remote call ended. */
  datatype Outcome = Succeeded | Threw(error: Thrown)

  /** The pages a handler or guard may navigate to. */
  datatype Route = LoginPage | DashboardPage | CreateProfilePage {

    function Path(): string {
      match this
      case LoginPage => "/login"
      case DashboardPage => "/dashboard"
      case CreateProfilePage => "/create-profile"
    }
  }

  /** What a route guard reads from the auth state: whether the auth check is
      still running, whether a user is signed in, whether a profile exists. */
  datatype GuardInput = GuardInput(isLoading: bool, hasUser: bool, hasProfile: bool)

  /** The navigation a guard effect issues, if any. */
  datatype Redirect = Stay | RedirectTo(route: Route)

  /** What a guarded page renders: the loading screen or its own content. */
  datatype Screen = LoadingScreen | Content
}

=== FILE: create_profile.dfy ===
/** The create-profile page: its guard, which mirrors the dashboard layout's,
    and the form submission that writes the profile document. */
module CreateProfile {
  import opened Common
  import Layout

  /** The page's redirect effect. */
  function ProfileRedirect(g: GuardInput): (r: Redirect)
    ensures g.isLoading ==> r == Stay
    ensures !g.isLoading && !g.hasUser ==> r == RedirectTo(LoginPage)
    ensures !g.isLoading && g.hasUser && g.hasProfile ==> r == RedirectTo(DashboardPage)
    ensures !g.isLoading && g.hasUser && !g.hasProfile ==> r == Stay
  {
    if !g.isLoading then
      if !g.hasUser then RedirectTo(LoginPage)
      else if g.hasProfile then RedirectTo(DashboardPage)
      else Stay
    else Stay
  }

  /** What the page renders: the form only once loaded, with a user and no
      profile. */
  function ProfileScreen(g: GuardInput): (s: Screen)
    ensures s == Content <==> !g.isLoading && g.hasUser && !g.hasProfile
  {
    if g.isLoading || !g.hasUser || g.hasProfile then LoadingScreen else Content
  }

  /** The two guards never send the user back and forth: no state has this
      page redirect to the dashboard while the layout redirects here, and once
      loading is over exactly one of the two renders its content, or both send
      the user to the login page. */
  lemma GuardsAgree(g: GuardInput)
    ensures !(ProfileRedirect(g) == RedirectTo(DashboardPage) && Layout.LayoutRedirect(g) == RedirectTo(CreateProfilePage))
    ensures Layout.LayoutRedirect(g) == RedirectTo(CreateProfilePage) ==> ProfileScreen(g) == Content
    ensures ProfileRedirect(g) == RedirectTo(DashboardPage) ==> Layout.LayoutScreen(g) == Content
    ensures !g.isLoading ==>
              || (Layout.LayoutScreen(g) == Content && ProfileScreen(g) == LoadingScreen)
              || (Layout.LayoutScreen(g) == LoadingScreen && ProfileScreen(g) == Content)
              || (Layout.LayoutRedirect(g) == RedirectTo(LoginPage) && ProfileRedirect(g) == RedirectTo(LoginPage))
  {
  }

  /** The form state. */
  datatype FormState = FormState(fullName: string, major: string, isSaving: bool, error: Option<string>)

  /** The document written to `users/<uid>`. */
  datatype ProfileDoc = ProfileDoc(uid: string, email: Option<string>, displayName: string, major: string, createdAt: WrittenTime)

  /** A remote call that took effect. */
  datatype Effect = AuthProfileUpdated(displayName: string) | ProfileWritten(uid: string, doc: ProfileDoc)

  /** One submission. */
  datatype Run = Run(final: FormState, effects: seq<Effect>, navigation: Option<Route>)

  const UserNotFound := "User not found. Please log in again."
  const FillAllFields := "Please fill in all fields."
  const CreateFailed := "Failed to create profile. Please try again."

  /** `handleSubmit`; `now` is the client clock (`new Date()`), `authUpdated`
      and `docWritten` the outcomes of the two remote calls, in that order.
      Without a user, or with an empty name or major, an error is set and
      nothing is written. The written profile carries the user's uid and email
      and the submitted name and major. */
  function Submit(s: FormState, user: Option<User>, now: Timestamp, authUpdated: Outcome, docWritten: Outcome): (r: Run)
    ensures user.None? ==> r == Run(s.(error := Some(UserNotFound)), [], None)
    ensures user.Some? && (s.fullName == "" || s.major == "") ==> r == Run(s.(error := Some(FillAllFields)), [], None)
    ensures user.Some? && s.fullName != "" && s.major != "" ==>
              && !r.final.isSaving
              && (r.navigation == Some(DashboardPage) <==> authUpdated.Succeeded? && docWritten.Succeeded?)
              && (r.final.error == Some(CreateFailed) <==> !(authUpdated.Succeeded? && docWritten.Succeeded?))
              && (authUpdated.Succeeded? && docWritten.Succeeded? ==>
                    && r.final.error == None
                    && r.effects == [AuthProfileUpdated(s.fullName),
                                     ProfileWritten(user.value.uid,
                                       ProfileDoc(user.value.uid, user.value.email, s.fullName, s.major, ClientTime(now)))])
              && (authUpdated.Threw? ==> r.effects == [])
              && (authUpdated.Succeeded? && docWritten.Threw? ==> r.effects == [AuthProfileUpdated(s.fullName)])
    ensures r.final.fullName == s.fullName && r.final.major == s.major
  {
    if user.None? then Run(s.(error := Some(UserNotFound)), [], None)
    else if s.fullName == "" || s.major == "" then Run(s.(error := Some(FillAllFields)), [], None)
    else
      var u := user.value;
      var started := s.(isSaving := true, error := None);
      var failed := started.(error := Some(CreateFailed), isSaving := false);
      if authUpdated.Threw? then Run(failed, [], None)
      else
        var authEffect := AuthProfileUpdated(s.fullName);
        if docWritten.Threw? then Run(failed, [authEffect], None)
        else
          var doc := ProfileDoc(u.uid, u.email, s.fullName, s.major, ClientTime(now));
          Run(started.(isSaving := false), [authEffect, ProfileWritten(u.uid, doc)], Some(DashboardPage))
  }
}

=== FILE: dashboard.dfy ===
/** The dashboard home page: the greeting name derived from the user's email
    and the filter chips over the whole catalog. */
module Dashboard {
  import opened Common
  import opened Strings
  import opened Notes
  import Seqs
  import MyNotes

  /** The chips the page offers. */
  const Chips: seq<string> := ["All", "Trending", "Newest", "For You", "Top Rated"]

  /** The dashboard's chip test: only 'Trending' and 'Top Rated' filter. */
  function ChipKeeps(selectedFilter: string): Note -> bool {
    (note: Note) =>
      if selectedFilter == "Trending" then AboveFourPointEight(note)
      else if selectedFilter == "Top Rated" then AtLeastFourPointNine(note)
      else true
  }

  /** `filteredNotes` of the dashboard. */
  function FilteredNotes(notes: seq<Note>, selectedFilter: string): (r: seq<Note>)
    ensures Seqs.IsSubsequence(r, notes)
    ensures selectedFilter == "Trending" ==> forall x :: x in r <==> x in notes && x.rating > 48
    ensures selectedFilter == "Top Rated" ==> forall x :: x in r <==> x in notes && x.rating >= 49
    ensures selectedFilter == "Trending" ==> forall x :: multiset(r)[x] == if x.rating > 48 then multiset(notes)[x] else 0
    ensures selectedFilter == "Top Rated" ==> forall x :: multiset(r)[x] == if x.rating >= 49 then multiset(notes)[x] else 0
  {
    Seqs.FilterIsSubsequence(notes, ChipKeeps(selectedFilter));
    assert forall x :: x in Seqs.Filter(notes, ChipKeeps(selectedFilter)) <==> x in notes && ChipKeeps(selectedFilter)(x) by {
      forall x {
        Seqs.FilterMembership(notes, ChipKeeps(selectedFilter), x);
      }
    }
    forall x
      ensures multiset(Seqs.Filter(notes, ChipKeeps(selectedFilter)))[x] == if ChipKeeps(selectedFilter)(x) then multiset(notes)[x] else 0
    {
      Seqs.FilterMultiset(notes, ChipKeeps(selectedFilter), x);
    }
    Seqs.Filter(notes, ChipKeeps(selectedFilter))
  }

  /** 'All', 'Newest', 'For You' and any other label keep every note in order. */
  lemma OtherChipsKeepAll(notes: seq<Note>, selectedFilter: string)
    requires selectedFilter != "Trending" && selectedFilter != "Top Rated"
    ensures FilteredNotes(notes, selectedFilter) == notes
  {
    Seqs.FilterKeepsAll(notes, ChipKeeps(selectedFilter));
  }

  /** Of the five chips the page offers, all but 'Trending' and 'Top Rated'
      show the whole catalog. */
  lemma OfferedChipsKeepAll(notes: seq<Note>)
    ensures forall i :: 0 <= i < |Chips| && Chips[i] != "Trending" && Chips[i] != "Top Rated" ==>
              FilteredNotes(notes, Chips[i]) == notes
  {
    forall i | 0 <= i < |Chips| && Chips[i] != "Trending" && Chips[i] != "Top Rated"
      ensures FilteredNotes(notes, Chips[i]) == notes
    {
      OtherChipsKeepAll(notes, Chips[i]);
    }
  }

  /** The dashboard's chip test agrees with the one of the "My Notes" page on
      every label, although only the latter checks 'All' first. */
  lemma SameChipsAsMyNotes(selectedFilter: string, note: Note)
    ensures ChipKeeps(selectedFilter)(note) == MyNotes.ChipKeeps(selectedFilter)(note)
  {
  }

  /** `findName()`: "Guest" without a user or email; otherwise the text before
      the first '@' is split on '.', and the first two pieces are capitalised
      and joined by a space, or the single piece is capitalised. */
  function FindName(user: Option<User>): (name: string)
    ensures user.None? || user.value.email.None? || user.value.email.value == "" ==> name == "Guest"
    ensures user.Some? && user.value.email.Some? && user.value.email.value != "" ==>
              var local := BeforeFirst(user.value.email.value, '@');
              if '.' in local then
                name == Capitalize(BeforeFirst(local, '.')) + " " + Capitalize(BeforeFirst(AfterFirst(local, '.'), '.'))
              else
                name == Capitalize(local)
  {
    if user.None? || user.value.email.None? || user.value.email.value == "" then "Guest"
    else
      var email := user.value.email.value;
      SplitHead(email, '@');
      var localPart := Split(email, '@')[0];
      var nameParts := Split(localPart, '.');
      SplitHead(localPart, '.');
      if |nameParts| >= 2 then
        SplitTail(localPart, '.');
        SplitHead(AfterFirst(localPart, '.'), '.');
        Capitalize(nameParts[0]) + " " + Capitalize(nameParts[1])
      else if |nameParts| == 1 then
        Capitalize(nameParts[0])
      else
        "User"
  }

  /** The greeting never reaches the "User" fallback branch: the local part
      always splits into at least one piece, and a local part without '.' is
      that one piece. */
  lemma {:induction false} FindNameFallbackUnreachable(email: string)
    ensures |Split(Split(email, '@')[0], '.')| >= 1
    ensures '.' !in Split(email, '@')[0] ==> Split(Split(email, '@')[0], '.') == [Split(email, '@')[0]]
  {
    var local := Split(email, '@')[0];
    if '.' !in local {
      assert IndexOf(local, '.') == |local|;
    }
  }

  /** A first.last address greets with both names capitalised, whatever
      follows the '@'. */
  lemma FirstLastGreeting(uid: string, first: string, last: string, domain: string)
    requires '.' !in first && '.' !in last && '@' !in first && '@' !in last
    ensures FindName(Some(User(uid, Some(first + "." + last + "@" + domain)))) == Capitalize(first) + " " + Capitalize(last)
  {
    var local := first + ['.'] + last;
    assert first + "." + last + "@" + domain == local + ['@'] + domain;
    assert '@' !in local by {
      assert forall i :: 0 <= i < |local| ==> local[i] == (if i < |first| then first[i] else if i == |first| then '.' else last[i - |first| - 1]);
    }
    FirstSeparator(local, '@', domain);
    FirstSeparator(first, '.', last);
    NoSeparator(last, '.');
  }

  /** An address whose local part has no '.' greets with that part capitalised. */
  lemma SinglePartGreeting(uid: string, name: string, domain: string)
    requires '.' !in name && '@' !in name
    ensures FindName(Some(User(uid, Some(name + "@" + domain)))) == Capitalize(name)
  {
    assert name + "@" + domain == name + ['@'] + domain;
    FirstSeparator(name, '@', domain);
  }
}

=== FILE: layout.dfy ===
/** The dashboard layout's guard: where its effect navigates and whether it
    renders its children. */
module Layout {
  import opened Common

  /** The layout's redirect effect. */
  function LayoutRedirect(g: GuardInput): (r: Redirect)
    ensures g.isLoading ==> r == Stay
    ensures !g.isLoading && !g.hasUser ==> r == RedirectTo(LoginPage)
    ensures !g.isLoading && g.hasUser && !g.hasProfile ==> r == RedirectTo(CreateProfilePage)
    ensures g.hasUser && g.hasProfile ==> r == Stay
  {
    if !g.isLoading then
      if !g.hasUser then RedirectTo(LoginPage)
      else if g.hasUser && !g.hasProfile then RedirectTo(CreateProfilePage)
      else Stay
    else Stay
  }

  /** What the layout renders. */
  function LayoutScreen(g: GuardInput): (s: Screen)
    ensures s == Content <==> !g.isLoading && g.hasUser && g.hasProfile
  {
    if g.isLoading || !g.hasUser || !g.hasProfile then LoadingScreen else Content
  }

  /** The layout either renders its children or redirects or is still loading,
      never two of these at once. */
  lemma RenderXorRedirect(g: GuardInput)
    ensures LayoutScreen(g) == Content ==> LayoutRedirect(g) == Stay
    ensures LayoutRedirect(g) != Stay ==> LayoutScreen(g) == LoadingScreen && !g.isLoading
    ensures LayoutScreen(g) == LoadingScreen && LayoutRedirect(g) == Stay ==> g.isLoading
  {
  }
}

=== FILE: login.dfy ===
/** The login page: the error messages and the loading/redirect flow. */
module Login {
  import opened Common

  const InvalidCredentials := "Invalid email or password. Please try again."
  const LoginFailed := "Failed to log in. Please try again later."
  const Unexpected := "An unexpected error occurred."

  /** The codes that mean the email or the password is wrong. */
  const CredentialCodes: seq<string> := ["auth/user-not-found", "auth/wrong-password", "auth/invalid-credential"]

  /** The message for a failed sign-in. */
  function ErrorMessage(err: Thrown): (m: string)
    ensures err.HasCode() && err.code in CredentialCodes ==> m == InvalidCredentials
    ensures err.HasCode() && err.code !in CredentialCodes ==> m == LoginFailed
    ensures !err.HasCode() ==> m == Unexpected
  {
    if err.HasCode() then
      var code := err.code;
      if code == "auth/user-not-found" || code == "auth/wrong-password" || code == "auth/invalid-credential"
      then InvalidCredentials
      else LoginFailed
    else Unexpected
  }

  /** The page state the handler changes. */
  datatype LoginState = LoginState(error: Option<string>, isLoading: bool)

  /** One login attempt: the state before the first await, the state at the
      end, and the navigation issued. */
  datatype Run = Run(start: LoginState, final: LoginState, navigation: Option<Route>)

  /** `handleLogin`; `signedIn` is the outcome of the sign-in call. */
  function HandleLogin(s: LoginState, signedIn: Outcome): (r: Run)
    ensures r.start == LoginState(None, true)
    ensures !r.final.isLoading
    ensures r.navigation == Some(DashboardPage) <==> signedIn.Succeeded?
    ensures signedIn.Succeeded? ==> r.navigation.value.Path() == "/dashboard"
    ensures r.navigation.None? <==> signedIn.Threw?
    ensures signedIn.Succeeded? ==> r.final.error == None
    ensures signedIn.Threw? ==> r.final.error == Some(ErrorMessage(signedIn.error))
  {
    var start := s.(error := None, isLoading := true);
    match signedIn
    case Succeeded => Run(start, start.(isLoading := false), Some(DashboardPage))
    case Threw(e) => Run(start, start.(error := Some(ErrorMessage(e)), isLoading := false), None)
  }
}

=== FILE: my_notes.dfy ===
/** The "My Uploaded Notes" page: a search over title and course, then a
    filter chip, over the notes the user uploaded; and the choice between the
    empty states and the grid. */
module MyNotes {
  import opened Common
  import opened Strings
  import opened Notes
  import Seqs

  /** The chips the page offers. */
  const Chips: seq<string> := ["All", "Trending", "Top Rated"]

  /** The search stage: an empty query keeps everything, otherwise the
      lower-cased title or course must include the lower-cased query. */
  function SearchKeeps(searchQuery: string): Note -> bool {
    (note: Note) =>
      var query := Lower(searchQuery);
      query == "" || Contains(Lower(note.title), query) || Contains(Lower(note.course), query)
  }

  /** The chip stage. */
  function ChipKeeps(selectedFilter: string): Note -> bool {
    (note: Note) =>
      if selectedFilter == "All" then true
      else if selectedFilter == "Trending" then AboveFourPointEight(note)
      else if selectedFilter == "Top Rated" then AtLeastFourPointNine(note)
      else true
  }

  /** The search condition stated over positions: the query is empty, or it
      occurs, ignoring ASCII case, somewhere in the title or in the course. */
  ghost predicate MatchesQuery(note: Note, searchQuery: string) {
    searchQuery == ""
    || (exists i :: OccursAt(Lower(note.title), Lower(searchQuery), i))
    || (exists i :: OccursAt(Lower(note.course), Lower(searchQuery), i))
  }

  /** The search stage keeps a note exactly when it matches the query. */
  lemma SearchKeepsIff(note: Note, searchQuery: string)
    ensures SearchKeeps(searchQuery)(note) <==> MatchesQuery(note, searchQuery)
  {
    LowerEmptyIff(searchQuery);
    ContainsIff(Lower(note.title), Lower(searchQuery));
    ContainsIff(Lower(note.course), Lower(searchQuery));
  }

  /** 'All' and any label other than 'Trending' and 'Top Rated' keep every
      note; 'Trending' and 'Top Rated' keep the same notes. */
  lemma ChipKeepsCases(selectedFilter: string, note: Note)
    ensures selectedFilter != "Trending" && selectedFilter != "Top Rated" ==> ChipKeeps(selectedFilter)(note)
    ensures ChipKeeps("Trending")(note) <==> note.rating > 48
    ensures ChipKeeps("Top Rated")(note) <==> note.rating >= 49
    ensures ChipKeeps("Trending")(note) == ChipKeeps("Top Rated")(note)
  {
  }

  /** `filteredNotes`: the search stage, then the chip stage. The result keeps
      the input order and holds exactly the notes that match the query and
      pass the chip. */
  function FilteredNotes(myNotes: seq<Note>, searchQuery: string, selectedFilter: string): (r: seq<Note>)
    ensures Seqs.IsSubsequence(r, myNotes)
    ensures forall x :: x in r <==> x in myNotes && MatchesQuery(x, searchQuery) && ChipKeeps(selectedFilter)(x)
    ensures forall x :: multiset(r)[x] == if MatchesQuery(x, searchQuery) && ChipKeeps(selectedFilter)(x) then multiset(myNotes)[x] else 0
  {
    var search := SearchKeeps(searchQuery);
    var chip := ChipKeeps(selectedFilter);
    var r := Seqs.Filter(Seqs.Filter(myNotes, search), chip);
    assert Seqs.IsSubsequence(r, myNotes) by {
      var both := (x: Note) => search(x) && chip(x);
      Seqs.FilterFilter(myNotes, search, chip, both);
      Seqs.FilterIsSubsequence(myNotes, both);
    }
    assert forall x :: x in r <==> x in myNotes && MatchesQuery(x, searchQuery) && chip(x) by {
      forall x
        ensures x in r <==> x in myNotes && MatchesQuery(x, searchQuery) && chip(x)
      {
        Seqs.FilterMembership(Seqs.Filter(myNotes, search), chip, x);
        Seqs.FilterMembership(myNotes, search, x);
        SearchKeepsIff(x, searchQuery);
      }
    }
    forall x
      ensures multiset(r)[x] == if MatchesQuery(x, searchQuery) && chip(x) then multiset(myNotes)[x] else 0
    {
      Seqs.FilterMultiset(Seqs.Filter(myNotes, search), chip, x);
      Seqs.FilterMultiset(myNotes, search, x);
      SearchKeepsIff(x, searchQuery);
    }
    r
  }

  /** With an empty query and a chip other than 'Trending' or 'Top Rated'
      every note is shown, in order. */
  lemma NoQueryNoChipKeepsAll(myNotes: seq<Note>, selectedFilter: string)
    requires selectedFilter != "Trending" && selectedFilter != "Top Rated"
    ensures FilteredNotes(myNotes, "", selectedFilter) == myNotes
  {
    Seqs.FilterKeepsAll(myNotes, SearchKeeps(""));
    Seqs.FilterKeepsAll(myNotes, ChipKeeps(selectedFilter));
  }

  /** Chip first and search second gives the same list. */
  lemma {:induction false} StagesCommute(myNotes: seq<Note>, searchQuery: string, selectedFilter: string)
    ensures FilteredNotes(myNotes, searchQuery, selectedFilter)
         == Seqs.Filter(Seqs.Filter(myNotes, ChipKeeps(selectedFilter)), SearchKeeps(searchQuery))
  {
    Seqs.FilterCommutes(myNotes, SearchKeeps(searchQuery), ChipKeeps(selectedFilter));
  }

  /** 'Trending' and 'Top Rated' show the same list. */
  lemma TrendingIsTopRated(myNotes: seq<Note>, searchQuery: string)
    ensures FilteredNotes(myNotes, searchQuery, "Trending") == FilteredNotes(myNotes, searchQuery, "Top Rated")
  {
    var searched := Seqs.Filter(myNotes, SearchKeeps(searchQuery));
    Seqs.FilterCongruent(searched, ChipKeeps("Trending"), ChipKeeps("Top Rated"));
  }

  /** The three chips the page offers show at most two different lists: the
      search result ('All') and the top-rated part of it. */
  lemma OfferedChipsShowTwoLists(myNotes: seq<Note>, searchQuery: string)
    ensures forall i :: 0 <= i < |Chips| ==>
              || FilteredNotes(myNotes, searchQuery, Chips[i]) == FilteredNotes(myNotes, searchQuery, "All")
              || FilteredNotes(myNotes, searchQuery, Chips[i]) == FilteredNotes(myNotes, searchQuery, "Top Rated")
  {
    forall i | 0 <= i < |Chips|
      ensures || FilteredNotes(myNotes, searchQuery, Chips[i]) == FilteredNotes(myNotes, searchQuery, "All")
              || FilteredNotes(myNotes, searchQuery, Chips[i]) == FilteredNotes(myNotes, searchQuery, "Top Rated")
    {
      if i == 1 {
        assert Chips[i] == "Trending";
        TrendingIsTopRated(myNotes, searchQuery);
      } else {
        assert Chips[i] == "All" || Chips[i] == "Top Rated";
      }
    }
  }

  /** What the page shows below the search bar. */
  datatype View = LoadingView | ErrorView(message: string) | NoUploadsView | NoneFoundView | GridView(notes: seq<Note>)

  /** The page body: loading first, then a load error, then "no uploads" for
      an empty list, then "no notes found" for an empty filtered list, else the
      grid of filtered notes. */
  function PageView(isLoading: bool, error: Option<string>, myNotes: seq<Note>, searchQuery: string, selectedFilter: string): (v: View)
    ensures !isLoading && error.None? ==>
              && (v == NoUploadsView <==> myNotes == [])
              && (v == NoneFoundView <==>
                    && myNotes != []
                    && forall x :: x in myNotes ==> !(MatchesQuery(x, searchQuery) && ChipKeeps(selectedFilter)(x)))
              && (v.GridView? ==> v.notes != [] && Seqs.IsSubsequence(v.notes, myNotes))
    ensures !isLoading && error.None? && myNotes != [] && FilteredNotes(myNotes, searchQuery, selectedFilter) != [] ==>
              v == GridView(FilteredNotes(myNotes, searchQuery, selectedFilter))
    ensures !isLoading && error.Some? ==> v == ErrorView(error.value)
    ensures isLoading ==> v == LoadingView
  {
    if isLoading then LoadingView
    else if error.Some? then ErrorView(error.value)
    else
      var filtered := FilteredNotes(myNotes, searchQuery, selectedFilter);
      if |myNotes| == 0 then NoUploadsView
      else if |filtered| == 0 then NoneFoundView
      else GridView(filtered)
  }
}

=== FILE: note.dfy ===
/** The note record of the catalog, as the pages read it back from the
    `notes` collection. */
module Notes {
  import opened Common

  /** A stored note. `rating` is in tenths of a star: every rating the client
      writes is a one-decimal number (0 for a new note), so tenths are exact. */
  datatype Note = Note(
    id: string,
    title: string,
    course: string,
    author: string,
    rating: int,
    price: int,
    authorId: string,
    pdfUrl: string,
    createdAt: Timestamp)

  /** `note.rating > 4.8` */
  predicate AboveFourPointEight(note: Note) {
    note.rating > 48
  }

  /** `note.rating >= 4.9` */
  predicate AtLeastFourPointNine(note: Note) {
    note.rating >= 49
  }

  /** On one-decimal ratings the 'Trending' and 'Top Rated' thresholds select
      the same notes: nothing lies strictly between 4.8 and 4.9. */
  lemma ThresholdsCoincide(note: Note)
    ensures AboveFourPointEight(note) <==> AtLeastFourPointNine(note)
  {
  }
}

=== FILE: reviews.dfy ===
/** The review section of a note page: the running average written to the
    note after a review is added or deleted, and the local updates of the
    review list and of each review's replies.

    Every remote call (adding or deleting a review document, updating the
    note's rating, the array union/removal on a review's replies) is an input
    saying whether it succeeded; a handler returns the new local state and the
    remote writes that took effect, in order. */
module Reviews {
  import opened Common
  import opened Strings
  import Seqs

  /** One entry of a review's `replies` array. */
  datatype Reply = Reply(userId: string, userName: string, text: string, createdAt: Timestamp)

  /** A review as held in the client's list; `replies` may be missing. */
  datatype Review = Review(
    id: string,
    userId: string,
    userName: string,
    rating: int,
    comment: string,
    createdAt: Timestamp,
    replies: Option<seq<Reply>>)

  /** The document written to the `reviews` collection. */
  datatype ReviewDoc = ReviewDoc(
    noteId: string,
    userId: string,
    userName: string,
    rating: int,
    comment: string,
    createdAt: WrittenTime,
    replies: seq<Reply>)

  /** A remote write that took effect. */
  datatype Effect =
    | ReviewAdded(doc: ReviewDoc)
    | NoteRatingWritten(noteId: string, rating: real)
    | ReviewDeleted(reviewId: string)
    | ReplyUnioned(reviewId: string, reply: Reply)
    | ReplyRemoved(reviewId: string, reply: Reply)

  /** The form fields of the section. */
  datatype Form = Form(newRating: int, newComment: string, replyingTo: Option<string>, replyText: string)

  /** The local state the handlers change. */
  datatype Section = Section(reviews: seq<Review>, form: Form)

  /** What one handler invocation did. */
  datatype Step = Step(after: Section, effects: seq<Effect>)

  /** The star choices offered by the review form. */
  const StarChoices: seq<int> := [1, 2, 3, 4, 5]

  /** `r.replies || []` */
  function RepliesOf(r: Review): seq<Reply> {
    if r.replies.Some? then r.replies.value else []
  }

  // ---------------------------------------------------------------------------
  // Rating aggregation
  // ---------------------------------------------------------------------------

  /** The ratings of a review list, in order. */
  function Ratings(reviews: seq<Review>): (xs: seq<int>)
    ensures |xs| == |reviews|
    ensures forall k :: 0 <= k < |reviews| ==> xs[k] == reviews[k].rating
  {
    Seqs.Map(reviews, (r: Review) => r.rating)
  }

  /** The sum of a list of ratings. */
  ghost function Total(xs: seq<int>): int {
    if xs == [] then 0 else xs[0] + Total(xs[1..])
  }

  /** The arithmetic mean of a list of ratings, 0 for the empty list: the
      value a note's rating is meant to hold. */
  ghost function Mean(xs: seq<int>): real {
    if xs == [] then 0.0 else Total(xs) as real / |xs| as real
  }

  /** `reviews.reduce((sum, r) => sum + r.rating, 0)`: a left fold. */
  function SumRatings(reviews: seq<Review>): int {
    if reviews == [] then 0
    else SumRatings(reviews[..|reviews| - 1]) + reviews[|reviews| - 1].rating
  }

  lemma {:induction false} TotalSnoc(xs: seq<int>, x: int)
    ensures Total(xs + [x]) == Total(xs) + x
  {
    if xs != [] {
      assert (xs + [x])[1..] == xs[1..] + [x];
      TotalSnoc(xs[1..], x);
    }
  }

  /** The fold the handler computes is the sum of the held ratings. */
  lemma {:induction false} SumRatingsIsTotal(reviews: seq<Review>)
    ensures SumRatings(reviews) == Total(Ratings(reviews))
  {
    if reviews != [] {
      var init := reviews[..|reviews| - 1];
      SumRatingsIsTotal(init);
      assert Ratings(reviews) == Ratings(init) + [reviews[|reviews| - 1].rating];
      TotalSnoc(Ratings(init), reviews[|reviews| - 1].rating);
    }
  }

  /** Whether `updateNoteRating` accounts for a new review or a deleted one. */
  datatype Mode = Add | Remove

  /** `updateNoteRating(ratingChange, mode)` before the one-decimal rounding:
      the held sum and count adjusted by one rating, and 0 when the adjusted
      count is not positive. Adding is the mean of the list the section shows
      next, with the new rating in front. */
  function NewAverage(reviews: seq<Review>, ratingChange: int, mode: Mode): (avg: real)
    ensures mode == Add ==> avg == Mean([ratingChange] + Ratings(reviews))
    ensures mode == Remove && |reviews| <= 1 ==> avg == 0.0
    ensures mode == Remove && |reviews| >= 2 ==>
              avg == (Total(Ratings(reviews)) - ratingChange) as real / (|reviews| - 1) as real
  {
    SumRatingsIsTotal(reviews);
    assert ([ratingChange] + Ratings(reviews))[1..] == Ratings(reviews);
    var currentSum := SumRatings(reviews);
    var newTotal := if mode == Add then currentSum + ratingChange else currentSum - ratingChange;
    var newCount := if mode == Add then |reviews| + 1 else |reviews| - 1;
    if newCount > 0 then newTotal as real / newCount as real else 0.0
  }

  /** Removing with the held count at or below one writes 0, whatever rating
      is passed; a named corollary of the remove-mode clause of `NewAverage`. */
  lemma RemoveFromShortListIsZero(reviews: seq<Review>, rating: int)
    requires |reviews| <= 1
    ensures NewAverage(reviews, rating, Remove) == 0.0
  {
  }

  /** Every id occurs at most once in the held list. */
  ghost predicate UniqueIds(reviews: seq<Review>) {
    forall i, j :: 0 <= i < j < |reviews| ==> reviews[i].id != reviews[j].id
  }

  /** `reviews.filter(r => r.id !== reviewId)` */
  function RemoveReview(reviews: seq<Review>, reviewId: string): (r: seq<Review>)
    ensures Seqs.IsSubsequence(r, reviews)
    ensures forall x :: x in r <==> x in reviews && x.id != reviewId
    ensures forall x :: multiset(r)[x] == if x.id != reviewId then multiset(reviews)[x] else 0
    ensures |r| == |reviews| - IdCount(reviews, reviewId)
  {
    var keep := (x: Review) => x.id != reviewId;
    Seqs.FilterIsSubsequence(reviews, keep);
    assert forall x :: x in Seqs.Filter(reviews, keep) <==> x in reviews && keep(x) by {
      forall x {
        Seqs.FilterMembership(reviews, keep, x);
      }
    }
    forall x
      ensures multiset(Seqs.Filter(reviews, keep))[x] == if keep(x) then multiset(reviews)[x] else 0
    {
      Seqs.FilterMultiset(reviews, keep, x);
    }
    RemoveReviewLength(reviews, reviewId);
    Seqs.Filter(reviews, keep)
  }

  /** The delete filter drops exactly one review per occurrence of the id. */
  lemma {:induction false} RemoveReviewLength(reviews: seq<Review>, reviewId: string)
    ensures |Seqs.Filter(reviews, (x: Review) => x.id != reviewId)| == |reviews| - IdCount(reviews, reviewId)
  {
    if reviews != [] {
      RemoveReviewLength(reviews[1..], reviewId);
    }
  }

  lemma {:induction false} RemoveReviewTotal(reviews: seq<Review>, reviewId: string, k: int)
    requires UniqueIds(reviews)
    requires 0 <= k < |reviews| && reviews[k].id == reviewId
    ensures |RemoveReview(reviews, reviewId)| == |reviews| - 1
    ensures Total(Ratings(RemoveReview(reviews, reviewId))) == Total(Ratings(reviews)) - reviews[k].rating
  {
    var keep := (x: Review) => x.id != reviewId;
    var tail := reviews[1..];
    assert Ratings(reviews)[1..] == Ratings(tail);
    if k == 0 {
      Seqs.FilterKeepsAll(tail, keep);
    } else {
      assert UniqueIds(tail);
      RemoveReviewTotal(tail, reviewId, k - 1);
      var rest := RemoveReview(tail, reviewId);
      assert RemoveReview(reviews, reviewId) == [reviews[0]] + rest;
      assert Ratings([reviews[0]] + rest)[1..] == Ratings(rest);
    }
  }

  /** Deleting a review the list holds once, passing its own rating, writes the
      mean of the list the section shows afterwards. */
  lemma RemoveIsMeanAfterDelete(reviews: seq<Review>, reviewId: string, k: int)
    requires UniqueIds(reviews)
    requires 0 <= k < |reviews| && reviews[k].id == reviewId
    ensures NewAverage(reviews, reviews[k].rating, Remove) == Mean(Ratings(RemoveReview(reviews, reviewId)))
  {
    RemoveReviewTotal(reviews, reviewId, k);
    RemoveIsMeanOf(reviews, Ratings(RemoveReview(reviews, reviewId)), reviews[k].rating);
  }

  /** Remove mode writes the mean of any list one shorter whose total lacks
      exactly the passed rating. */
  lemma RemoveIsMeanOf(reviews: seq<Review>, rest: seq<int>, rating: int)
    requires |reviews| >= 1 && |rest| == |reviews| - 1
    requires Total(rest) == Total(Ratings(reviews)) - rating
    ensures NewAverage(reviews, rating, Remove) == Mean(rest)
  {
    SumRatingsIsTotal(reviews);
    if |reviews| == 1 {
      assert rest == [];
    }
  }

  /** Adding a review and then deleting it (passing the same rating) writes the
      average the list had before the review was added. */
  lemma AddThenRemoveRestores(reviews: seq<Review>, added: Review)
    ensures NewAverage([added] + reviews, added.rating, Remove) == Mean(Ratings(reviews))
  {
    SumRatingsIsTotal([added] + reviews);
    SumRatingsIsTotal(reviews);
    assert Ratings([added] + reviews) == [added.rating] + Ratings(reviews);
  }

  /** Deleting a review held once and then adding a review with the same
      rating writes the average the list had before the delete. */
  lemma DeleteThenAddRestores(reviews: seq<Review>, reviewId: string, k: int)
    requires UniqueIds(reviews)
    requires 0 <= k < |reviews| && reviews[k].id == reviewId
    ensures NewAverage(RemoveReview(reviews, reviewId), reviews[k].rating, Add) == Mean(Ratings(reviews))
  {
    var rest := Ratings(RemoveReview(reviews, reviewId));
    RemoveReviewTotal(reviews, reviewId, k);
    assert ([reviews[k].rating] + rest)[1..] == rest;
    assert Total([reviews[k].rating] + rest) == Total(Ratings(reviews));
  }

  lemma {:induction false} TotalBounds(xs: seq<int>)
    requires forall k :: 0 <= k < |xs| ==> 1 <= xs[k] <= 5
    ensures |xs| <= Total(xs) <= 5 * |xs|
  {
    if xs != [] {
      TotalBounds(xs[1..]);
    }
  }

  /** With every rating one of the star choices, the mean of a non-empty list
      lies between one and five stars. */
  lemma MeanBounds(xs: seq<int>)
    requires xs != []
    requires forall k :: 0 <= k < |xs| ==> xs[k] in StarChoices
    ensures 1.0 <= Mean(xs) <= 5.0
  {
    TotalBounds(xs);
    RatioBounds(Total(xs) as real, |xs| as real);
  }

  /** A total between `n` and `5n` over `n > 0` items averages between 1 and 5. */
  lemma RatioBounds(t: real, n: real)
    requires n > 0.0 && n <= t <= 5.0 * n
    ensures 1.0 <= t / n <= 5.0
  {
    var m := t / n;
    assert m * n == t;
    assert (m - 1.0) * n == t - n;
    assert (5.0 - m) * n == 5.0 * n - t;
    NonNegativeFactor(m - 1.0, n);
    NonNegativeFactor(5.0 - m, n);
  }

  lemma NonNegativeFactor(a: real, n: real)
    requires n > 0.0 && a * n >= 0.0
    ensures a >= 0.0
  {
  }

  /** No reviews, then a 5, then a 3, then the 5 deleted: the written averages
      are 5, 4 and 3. */
  lemma RatingScenario(now: Timestamp)
    ensures var five := Review("a", "u1", "A", 5, "good", now, Some([]));
            var three := Review("b", "u2", "B", 3, "ok", now, Some([]));
            && NewAverage([], 5, Add) == 5.0
            && NewAverage([five], 3, Add) == 4.0
            && NewAverage([three, five], 5, Remove) == 3.0
  {
    var five := Review("a", "u1", "A", 5, "good", now, Some([]));
    var three := Review("b", "u2", "B", 3, "ok", now, Some([]));
    assert SumRatings([five]) == 5;
    assert [three, five][..1] == [three];
    assert SumRatings([three, five]) == 8;
  }

  // ---------------------------------------------------------------------------
  // Local list updates
  // ---------------------------------------------------------------------------

  /** The name stored with a remote write: the profile's display name, else the
      text before the first '@' of the email, else `fallback`. */
  function AuthorName(user: User, profile: Option<Profile>, fallback: string): (name: string)
    ensures profile.Some? && profile.value.displayName != "" ==> name == profile.value.displayName
    ensures (profile.None? || profile.value.displayName == "") && user.email.Some? && BeforeFirst(user.email.value, '@') != "" ==>
              name == BeforeFirst(user.email.value, '@')
    ensures (profile.None? || profile.value.displayName == "") && (user.email.None? || BeforeFirst(user.email.value, '@') == "") ==>
              name == fallback
  {
    if user.email.Some? then SplitHead(user.email.value, '@'); AuthorNameOf(user, profile, fallback)
    else AuthorNameOf(user, profile, fallback)
  }

  /** `userProfile?.displayName` */
  function DisplayNameOf(profile: Option<Profile>): Option<string> {
    if profile.Some? then Some(profile.value.displayName) else None
  }

  function AuthorNameOf(user: User, profile: Option<Profile>, fallback: string): string {
    var fromProfile := DisplayNameOf(profile);
    var fromEmail := if user.email.Some? then Some(Split(user.email.value, '@')[0]) else None;
    OrElse(fromProfile, OrElse(fromEmail, fallback))
  }

  /** The local copy of the replies of matching reviews, with `reply` appended. */
  function AppendReply(reviews: seq<Review>, reviewId: string, reply: Reply): (r: seq<Review>)
    ensures |r| == |reviews|
    ensures forall k :: 0 <= k < |reviews| && reviews[k].id == reviewId ==>
              r[k] == reviews[k].(replies := Some(RepliesOf(reviews[k]) + [reply]))
    ensures forall k :: 0 <= k < |reviews| && reviews[k].id != reviewId ==> r[k] == reviews[k]
  {
    Seqs.Map(reviews, (x: Review) => if x.id == reviewId then x.(replies := Some(RepliesOf(x) + [reply])) else x)
  }

  /** A reply is kept unless its `createdAt` is the very Timestamp object of the
      target (`!==` on objects). */
  function KeepReply(target: Reply): Reply -> bool {
    (x: Reply) => x.createdAt.objectId != target.createdAt.objectId
  }

  /** The local copy of the replies of matching reviews, filtered by the
      target's `createdAt`. */
  function DropReply(reviews: seq<Review>, reviewId: string, target: Reply): (r: seq<Review>)
    ensures |r| == |reviews|
    ensures forall k :: 0 <= k < |reviews| && reviews[k].id == reviewId ==>
              r[k] == reviews[k].(replies := Some(Seqs.Filter(RepliesOf(reviews[k]), KeepReply(target))))
    ensures forall k :: 0 <= k < |reviews| && reviews[k].id != reviewId ==> r[k] == reviews[k]
  {
    Seqs.Map(reviews, (x: Review) =>
      if x.id == reviewId then x.(replies := Some(Seqs.Filter(RepliesOf(x), KeepReply(target)))) else x)
  }

  /** In a matching review, local reply deletion keeps exactly the replies
      whose `createdAt` is not the target's (every such reply goes, however
      many), keeps their order, and never grows the list. */
  lemma DropReplyRemovesAllMatches(reviews: seq<Review>, reviewId: string, target: Reply, k: int, x: Reply)
    requires 0 <= k < |reviews| && reviews[k].id == reviewId
    ensures x in RepliesOf(DropReply(reviews, reviewId, target)[k]) <==>
              x in RepliesOf(reviews[k]) && x.createdAt.objectId != target.createdAt.objectId
    ensures Seqs.IsSubsequence(RepliesOf(DropReply(reviews, reviewId, target)[k]), RepliesOf(reviews[k]))
    ensures |RepliesOf(DropReply(reviews, reviewId, target)[k])| <= |RepliesOf(reviews[k])|
  {
    Seqs.FilterMembership(RepliesOf(reviews[k]), KeepReply(target), x);
    Seqs.FilterIsSubsequence(RepliesOf(reviews[k]), KeepReply(target));
  }

  /** The number of replies held across the list. */
  function ReplyCount(reviews: seq<Review>): nat {
    if reviews == [] then 0 else |RepliesOf(reviews[0])| + ReplyCount(reviews[1..])
  }

  /** The number of held reviews with the given id. */
  function IdCount(reviews: seq<Review>, reviewId: string): nat {
    if reviews == [] then 0 else (if reviews[0].id == reviewId then 1 else 0) + IdCount(reviews[1..], reviewId)
  }

  /** Appending a reply adds exactly one reply per review carrying the id. */
  lemma {:induction false} AppendReplyCount(reviews: seq<Review>, reviewId: string, reply: Reply)
    ensures ReplyCount(AppendReply(reviews, reviewId, reply)) == ReplyCount(reviews) + IdCount(reviews, reviewId)
  {
    if reviews != [] {
      AppendReplyCount(reviews[1..], reviewId, reply);
      assert AppendReply(reviews, reviewId, reply)[1..] == AppendReply(reviews[1..], reviewId, reply);
    }
  }

  // ---------------------------------------------------------------------------
  // Handlers
  // ---------------------------------------------------------------------------

  /** `handleSubmitReview`. `added` is the new document's id, or None when
      adding it failed; `ratingWritten` says whether the note update succeeded.
      A missing user or a blank comment changes nothing. On success the new
      review is put in front of the list, the form is reset, and the average
      written is the mean of the list shown. */
  function SubmitReview(
    noteId: string, s: Section, user: Option<User>, profile: Option<Profile>,
    added: Option<string>, ratingWritten: bool, now: Timestamp): (step: Step)
    ensures (user.None? || IsBlank(s.form.newComment)) ==> step == Step(s, [])
    ensures user.Some? && !IsBlank(s.form.newComment) && added.Some? && ratingWritten ==>
              && |step.after.reviews| == |s.reviews| + 1
              && step.after.reviews[1..] == s.reviews
              && step.after.reviews[0]
                   == Review(added.value, user.value.uid, OrElse(DisplayNameOf(profile), "You"),
                             s.form.newRating, s.form.newComment, now, Some([]))
              && step.after.form == s.form.(newRating := 5, newComment := "")
              && step.effects
                   == [ReviewAdded(ReviewDoc(noteId, user.value.uid, AuthorName(user.value, profile, "Anonymous"),
                                             s.form.newRating, s.form.newComment, ServerTime, [])),
                       NoteRatingWritten(noteId, Mean(Ratings(step.after.reviews)))]
    ensures user.Some? && !IsBlank(s.form.newComment) && added.Some? && !ratingWritten ==>
              step.effects
                == [ReviewAdded(ReviewDoc(noteId, user.value.uid, AuthorName(user.value, profile, "Anonymous"),
                                          s.form.newRating, s.form.newComment, ServerTime, []))]
    ensures !(added.Some? && ratingWritten) ==> step.after == s
    ensures added.None? ==> step.effects == []
  {
    TrimEmptyIff(s.form.newComment);
    if user.None? || Trim(s.form.newComment) == "" then Step(s, [])
    else if added.None? then Step(s, [])
    else
      var u := user.value;
      var doc := ReviewDoc(noteId, u.uid, AuthorName(u, profile, "Anonymous"),
                           s.form.newRating, s.form.newComment, ServerTime, []);
      var avg := NewAverage(s.reviews, s.form.newRating, Add);
      if !ratingWritten then Step(s, [ReviewAdded(doc)])
      else
        var local := Review(added.value, u.uid, OrElse(DisplayNameOf(profile), "You"),
                            s.form.newRating, s.form.newComment, now, Some([]));
        assert Ratings([local] + s.reviews) == [s.form.newRating] + Ratings(s.reviews);
        Step(Section([local] + s.reviews, s.form.(newComment := "", newRating := 5)),
             [ReviewAdded(doc), NoteRatingWritten(noteId, avg)])
  }

  /** `handleDeleteReview(reviewId, rating)`. `confirmed` is the answer to the
      dialog; `deleted` and `ratingWritten` the outcomes of the two remote
      calls. On success every held review with that id leaves the list, the
      others stay in order, and when the list held it once with this rating the
      average written is the mean of the list shown. */
  function DeleteReview(
    noteId: string, s: Section, reviewId: string, rating: int,
    confirmed: bool, deleted: bool, ratingWritten: bool): (step: Step)
    ensures !confirmed || !deleted ==> step == Step(s, [])
    ensures !ratingWritten ==> step.after == s
    ensures confirmed && deleted && !ratingWritten ==> step.effects == [ReviewDeleted(reviewId)]
    ensures confirmed && deleted && ratingWritten ==>
              && step.after == s.(reviews := RemoveReview(s.reviews, reviewId))
              && step.effects == [ReviewDeleted(reviewId), NoteRatingWritten(noteId, NewAverage(s.reviews, rating, Remove))]
              && (UniqueIds(s.reviews) && (exists k :: 0 <= k < |s.reviews| && s.reviews[k].id == reviewId && s.reviews[k].rating == rating) ==>
                    step.effects[1].rating == Mean(Ratings(step.after.reviews)))
  {
    if !confirmed || !deleted then Step(s, [])
    else
      var avg := NewAverage(s.reviews, rating, Remove);
      if !ratingWritten then Step(s, [ReviewDeleted(reviewId)])
      else
        var after := RemoveReview(s.reviews, reviewId);
        assert UniqueIds(s.reviews) && (exists k :: 0 <= k < |s.reviews| && s.reviews[k].id == reviewId && s.reviews[k].rating == rating) ==>
                 avg == Mean(Ratings(after)) by {
          if UniqueIds(s.reviews) && exists k :: 0 <= k < |s.reviews| && s.reviews[k].id == reviewId && s.reviews[k].rating == rating {
            var k :| 0 <= k < |s.reviews| && s.reviews[k].id == reviewId && s.reviews[k].rating == rating;
            RemoveIsMeanAfterDelete(s.reviews, reviewId, k);
          }
        }
        Step(s.(reviews := after), [ReviewDeleted(reviewId), NoteRatingWritten(noteId, avg)])
  }

  /** `handleReplySubmit(reviewId)`. A missing user or blank reply text
      changes nothing; on success the reply is appended to the matching
      reviews, the reply form closes, and nothing else changes. */
  function SubmitReply(
    s: Section, reviewId: string, user: Option<User>, profile: Option<Profile>,
    updated: bool, now: Timestamp): (step: Step)
    ensures (user.None? || IsBlank(s.form.replyText)) ==> step == Step(s, [])
    ensures !updated ==> step == Step(s, [])
    ensures user.Some? && !IsBlank(s.form.replyText) && updated ==>
              var reply := Reply(user.value.uid, AuthorName(user.value, profile, "User"), s.form.replyText, now);
              && step.after.reviews == AppendReply(s.reviews, reviewId, reply)
              && step.after.form == s.form.(replyingTo := None, replyText := "")
              && step.effects == [ReplyUnioned(reviewId, reply)]
  {
    TrimEmptyIff(s.form.replyText);
    if user.None? || Trim(s.form.replyText) == "" then Step(s, [])
    else
      var u := user.value;
      var payload := Reply(u.uid, AuthorName(u, profile, "User"), s.form.replyText, now);
      if !updated then Step(s, [])
      else Step(Section(AppendReply(s.reviews, reviewId, payload), s.form.(replyingTo := None, replyText := "")),
                [ReplyUnioned(reviewId, payload)])
  }

  /** `handleDeleteReply(reviewId, reply)`. Without confirmation or when the
      remote removal fails nothing changes; otherwise the matching reviews drop
      the replies sharing the target's `createdAt`. */
  function DeleteReply(s: Section, reviewId: string, target: Reply, confirmed: bool, updated: bool): (step: Step)
    ensures !confirmed || !updated ==> step == Step(s, [])
    ensures confirmed && updated ==>
              && step.after == s.(reviews := DropReply(s.reviews, reviewId, target))
              && step.effects == [ReplyRemoved(reviewId, target)]
  {
    if !confirmed || !updated then Step(s, [])
    else Step(s.(reviews := DropReply(s.reviews, reviewId, target)), [ReplyRemoved(reviewId, target)])
  }
}

=== FILE: seqs.dfy ===
/** `Array.prototype.filter` and `Array.prototype.map` over sequences, with the
    facts the pages rely on: filtering keeps order, keeps exactly the elements
    that pass, and two filters commute. */
module Seqs {

  /** `s.filter(p)`. */
  function Filter<T>(s: seq<T>, p: T -> bool): (r: seq<T>)
    ensures |r| <= |s|
    ensures forall k :: 0 <= k < |r| ==> p(r[k])
  {
    if s == [] then [] else if p(s[0]) then [s[0]] + Filter(s[1..], p) else Filter(s[1..], p)
  }

  /** `s.map(f)`. */
  function Map<T, U>(s: seq<T>, f: T -> U): (r: seq<U>)
    ensures |r| == |s|
    ensures forall k :: 0 <= k < |s| ==> r[k] == f(s[k])
  {
    if s == [] then [] else [f(s[0])] + Map(s[1..], f)
  }

  /** `a` is obtained from `b` by deleting elements, the rest kept in order. */
  ghost predicate IsSubsequence<T>(a: seq<T>, b: seq<T>) {
    if a == [] then true
    else if b == [] then false
    else if a[0] == b[0] then IsSubsequence(a[1..], b[1..])
    else IsSubsequence(a, b[1..])
  }

  /** The filtered sequence is a subsequence of the input: nothing is reordered
      and nothing is invented. */
  lemma {:induction false} FilterIsSubsequence<T>(s: seq<T>, p: T -> bool)
    ensures IsSubsequence(Filter(s, p), s)
  {
    if s != [] {
      FilterIsSubsequence(s[1..], p);
      if !p(s[0]) {
        SubsequenceDropHead(Filter(s[1..], p), s);
      }
    }
  }

  lemma {:induction false} SubsequenceDropHead<T>(a: seq<T>, b: seq<T>)
    requires b != []
    requires IsSubsequence(a, b[1..])
    ensures IsSubsequence(a, b)
    decreases |b|, 0
  {
    if a != [] && a[0] == b[0] {
      SubsequenceTail(a, b[1..]);
    }
  }

  lemma {:induction false} SubsequenceTail<T>(a: seq<T>, b: seq<T>)
    requires a != []
    requires IsSubsequence(a, b)
    ensures IsSubsequence(a[1..], b)
    decreases |b|, 1
  {
    if b != [] {
      if a[0] == b[0] {
        SubsequenceDropHead(a[1..], b);
      } else {
        SubsequenceTail(a, b[1..]);
        SubsequenceDropHead(a[1..], b);
      }
    }
  }

  /** An element survives the filter exactly when it is in the input and passes. */
  lemma {:induction false} FilterMembership<T>(s: seq<T>, p: T -> bool, x: T)
    ensures x in Filter(s, p) <==> x in s && p(x)
  {
    if s != [] {
      FilterMembership(s[1..], p, x);
      assert x in s <==> x == s[0] || x in s[1..];
    }
  }

  /** The filter keeps every copy of an element that passes and none of one
      that does not. */
  lemma {:induction false} FilterMultiset<T>(s: seq<T>, p: T -> bool, x: T)
    ensures multiset(Filter(s, p))[x] == if p(x) then multiset(s)[x] else 0
  {
    if s != [] {
      FilterMultiset(s[1..], p, x);
      assert s == [s[0]] + s[1..];
    }
  }

  /** A filter whose predicate holds everywhere keeps the whole sequence. */
  lemma {:induction false} FilterKeepsAll<T>(s: seq<T>, p: T -> bool)
    requires forall k :: 0 <= k < |s| ==> p(s[k])
    ensures Filter(s, p) == s
  {
    if s != [] {
      FilterKeepsAll(s[1..], p);
    }
  }

  /** A filter whose predicate holds nowhere keeps nothing. */
  lemma {:induction false} FilterKeepsNone<T>(s: seq<T>, p: T -> bool)
    requires forall k :: 0 <= k < |s| ==> !p(s[k])
    ensures Filter(s, p) == []
  {
    if s != [] {
      FilterKeepsNone(s[1..], p);
    }
  }

  /** Filters depend on their predicate only pointwise on the input. */
  lemma {:induction false} FilterCongruent<T>(s: seq<T>, p: T -> bool, q: T -> bool)
    requires forall k :: 0 <= k < |s| ==> p(s[k]) == q(s[k])
    ensures Filter(s, p) == Filter(s, q)
  {
    if s != [] {
      FilterCongruent(s[1..], p, q);
    }
  }

  /** Two filters in a row are one filter by the conjunction. */
  lemma {:induction false} FilterFilter<T>(s: seq<T>, p: T -> bool, q: T -> bool, pq: T -> bool)
    requires forall x :: pq(x) == (p(x) && q(x))
    ensures Filter(Filter(s, p), q) == Filter(s, pq)
  {
    if s != [] {
      FilterFilter(s[1..], p, q, pq);
    }
  }

  /** Two filters commute. */
  lemma {:induction false} FilterCommutes<T>(s: seq<T>, p: T -> bool, q: T -> bool)
    ensures Filter(Filter(s, p), q) == Filter(Filter(s, q), p)
  {
    var pq := x => p(x) && q(x);
    var qp := x => q(x) && p(x);
    FilterFilter(s, p, q, pq);
    FilterFilter(s, q, p, qp);
    FilterCongruent(s, pq, qp);
  }

  /** Filtering distributes over concatenation. */
  lemma {:induction false} FilterAppend<T>(a: seq<T>, b: seq<T>, p: T -> bool)
    ensures Filter(a + b, p) == Filter(a, p) + Filter(b, p)
  {
    if a != [] {
      assert (a + b)[1..] == a[1..] + b;
      FilterAppend(a[1..], b, p);
    } else {
      assert a + b == b;
    }
  }

  /** Mapping distributes over concatenation. */
  lemma MapAppend<T, U>(a: seq<T>, b: seq<T>, f: T -> U)
    ensures Map(a + b, f) == Map(a, f) + Map(b, f)
  {
  }
}

=== FILE: signup.dfy ===
/** The sign-up page: the institutional-domain check, the error messages, and
    the navigation to the login page after every attempt that passed the
    check. */
module Signup {
  import opened Common
  import opened Strings

  const Domain := "@binus.ac.id"
  const DomainError := "Please use a valid Binusian email address (@binus.ac.id)."
  const AlreadyRegistered := "This email address is already registered."
  const CreateFailed := "Failed to create an account. Please try again."
  const Unexpected := "An unexpected error occurred."

  /** `email.endsWith('@binus.ac.id')` */
  predicate IsBinusEmail(email: string) {
    EndsWith(email, Domain)
  }

  /** The check holds exactly for some text followed by the domain: it is
      case-sensitive and looks at nothing before the suffix. */
  lemma BinusEmailIff(email: string)
    ensures IsBinusEmail(email) <==> exists prefix :: prefix + Domain == email
  {
    if IsBinusEmail(email) {
      var prefix := email[..|email| - |Domain|];
      assert prefix + Domain == email;
    }
    if exists prefix :: prefix + Domain == email {
      var prefix :| prefix + Domain == email;
      assert email[|email| - |Domain|..] == Domain;
    }
  }

  /** Upper-case domains are refused and extra '@'s are let through. */
  lemma DomainCheckExamples()
    ensures !IsBinusEmail("someone@BINUS.AC.ID")
    ensures IsBinusEmail("x@evil.com@binus.ac.id")
    ensures !IsBinusEmail("binus.ac.id")
  {
    assert "x@evil.com@binus.ac.id" == "x@evil.com" + Domain;
    BinusEmailIff("x@evil.com@binus.ac.id");
    assert "someone@BINUS.AC.ID"[8] != Domain[1];
  }

  /** The message for a failed account creation. */
  function ErrorMessage(err: Thrown): (m: string)
    ensures err.HasCode() && err.code == "auth/email-already-in-use" ==> m == AlreadyRegistered
    ensures err.HasCode() && err.code != "auth/email-already-in-use" ==> m == CreateFailed
    ensures !err.HasCode() ==> m == Unexpected
  {
    if err.HasCode() then
      if err.code == "auth/email-already-in-use" then AlreadyRegistered else CreateFailed
    else Unexpected
  }

  /** What one sign-up attempt did. */
  datatype Run = Run(
    error: Option<string>,
    loadingRaised: bool,
    isLoading: bool,
    creationAttempted: bool,
    navigation: Option<Route>)

  /** `handleSignUp`; `created` is the outcome of the account creation. */
  function SignUp(email: string, isLoading: bool, created: Outcome): (r: Run)
    ensures !IsBinusEmail(email) ==> r == Run(Some(DomainError), false, isLoading, false, None)
    ensures IsBinusEmail(email) ==>
              && r.loadingRaised && !r.isLoading && r.creationAttempted
              && r.navigation == Some(LoginPage)
              && r.navigation.value.Path() == "/login"
              && (created.Succeeded? ==> r.error == None)
              && (created.Threw? ==> r.error == Some(ErrorMessage(created.error)))
  {
    if !IsBinusEmail(email) then Run(Some(DomainError), false, isLoading, false, None)
    else
      var error := if created.Threw? then Some(ErrorMessage(created.error)) else None;
      Run(error, true, false, true, Some(LoginPage))
  }
}

=== FILE: strings.dfy ===
/** The JavaScript string operations the handlers rely on, over `seq<char>`:
    case mapping, `includes`, `endsWith`, `split` on one character, `trim`,
    `charAt(0).toUpperCase() + slice(1)` and decimal rendering of a number. */
module Strings {

  /** `toLowerCase` on one character, for the ASCII letters. */
  function LowerChar(c: char): char {
    if 'A' <= c <= 'Z' then (c as int + 32) as char else c
  }

  /** `toUpperCase` on one character, for the ASCII letters. */
  function UpperChar(c: char): char {
    if 'a' <= c <= 'z' then (c as int - 32) as char else c
  }

  /** `s.toLowerCase()`: every character mapped on its own, length kept. */
  function Lower(s: string): (r: string)
    ensures |r| == |s|
    ensures forall i :: 0 <= i < |s| ==> r[i] == LowerChar(s[i])
  {
    if s == [] then [] else [LowerChar(s[0])] + Lower(s[1..])
  }

  /** Lower-casing never turns a non-empty string into the empty one, so the
      query test `!query` after `toLowerCase()` is a test on the raw query. */
  lemma LowerEmptyIff(s: string)
    ensures Lower(s) == "" <==> s == ""
  {
  }

  /** `s.charAt(0).toUpperCase() + s.slice(1)`. */
  function Capitalize(s: string): (r: string)
    ensures |r| == |s|
    ensures s != "" ==> r[0] == UpperChar(s[0]) && r[1..] == s[1..]
  {
    if s == "" then "" else [UpperChar(s[0])] + s[1..]
  }

  /** `t` occurs in `s` at position `i`. */
  ghost predicate OccursAt(s: string, t: string, i: int) {
    0 <= i && i + |t| <= |s| && s[i..i + |t|] == t
  }

  /** `s.includes(t)`, scanning from the left. */
  function Contains(s: string, t: string): bool
    decreases |s|
  {
    (|t| <= |s| && s[..|t|] == t) || (s != [] && Contains(s[1..], t))
  }

  /** `includes` holds exactly when `t` occurs at some position of `s`. */
  lemma {:induction false} ContainsIff(s: string, t: string)
    ensures Contains(s, t) <==> exists i :: OccursAt(s, t, i)
    decreases |s|
  {
    if |t| <= |s| && s[..|t|] == t {
      assert OccursAt(s, t, 0);
    } else if s != [] {
      ContainsIff(s[1..], t);
      OccursLater(s, t);
    }
  }

  /** When `t` is not at the front of `s`, it occurs in `s` exactly when it
      occurs in the tail. */
  lemma OccursLater(s: string, t: string)
    requires s != [] && !(|t| <= |s| && s[..|t|] == t)
    ensures (exists i :: OccursAt(s, t, i)) <==> exists j :: OccursAt(s[1..], t, j)
  {
    if exists i :: OccursAt(s, t, i) {
      var i :| OccursAt(s, t, i);
      assert i != 0;
      assert s[1..][i - 1..i - 1 + |t|] == s[i..i + |t|];
      assert OccursAt(s[1..], t, i - 1);
    }
    if exists j :: OccursAt(s[1..], t, j) {
      var j :| OccursAt(s[1..], t, j);
      assert s[1..][j..j + |t|] == s[j + 1..j + 1 + |t|];
      assert OccursAt(s, t, j + 1);
    }
  }

  /** `s.endsWith(suffix)`. */
  predicate EndsWith(s: string, suffix: string) {
    |suffix| <= |s| && s[|s| - |suffix|..] == suffix
  }

  /** Position of the first `c` in `s`, or `|s|` when there is none. */
  function IndexOf(s: string, c: char): (i: nat)
    ensures i <= |s|
    ensures forall j :: 0 <= j < i ==> s[j] != c
    ensures i < |s| ==> s[i] == c
  {
    if s == [] then 0 else if s[0] == c then 0 else 1 + IndexOf(s[1..], c)
  }

  /** `s.split(c)` for a one-character separator: the pieces between
      separators, left to right; there is always at least one piece. */
  function Split(s: string, c: char): (parts: seq<string>)
    ensures |parts| >= 1
    ensures forall k :: 0 <= k < |parts| ==> c !in parts[k]
    ensures |parts| >= 2 <==> c in s
    decreases |s|
  {
    var i := IndexOf(s, c);
    if i == |s| then [s] else [s[..i]] + Split(s[i + 1..], c)
  }

  /** `parts.join(c)`. */
  function Join(parts: seq<string>, c: char): string {
    if parts == [] then ""
    else if |parts| == 1 then parts[0]
    else parts[0] + [c] + Join(parts[1..], c)
  }

  /** Splitting loses nothing: joining the pieces again gives the input back. */
  lemma {:induction false} JoinSplit(s: string, c: char)
    ensures Join(Split(s, c), c) == s
    decreases |s|
  {
    var i := IndexOf(s, c);
    if i < |s| {
      var rest := Split(s[i + 1..], c);
      JoinSplit(s[i + 1..], c);
      assert Split(s, c) == [s[..i]] + rest;
      assert ([s[..i]] + rest)[1..] == rest;
      assert Join([s[..i]] + rest, c) == s[..i] + [c] + Join(rest, c);
      assert s == s[..i] + [c] + s[i + 1..];
    }
  }

  /** Joining separator-free pieces and splitting again gives the pieces back. */
  lemma {:induction false} SplitJoin(parts: seq<string>, c: char)
    requires |parts| >= 1
    requires forall k :: 0 <= k < |parts| ==> c !in parts[k]
    ensures Split(Join(parts, c), c) == parts
    decreases |parts|
  {
    if |parts| == 1 {
      assert IndexOf(parts[0], c) == |parts[0]|;
    } else {
      var s := Join(parts, c);
      var rest := Join(parts[1..], c);
      assert s == parts[0] + [c] + rest;
      assert s[|parts[0]|] == c;
      assert IndexOf(s, c) == |parts[0]| by {
        assert forall j :: 0 <= j < |parts[0]| ==> s[j] == parts[0][j];
      }
      assert s[..|parts[0]|] == parts[0];
      assert s[|parts[0]| + 1..] == rest;
      SplitJoin(parts[1..], c);
    }
  }

  /** The text before the first `c` (all of `s` when there is none). */
  function BeforeFirst(s: string, c: char): (r: string)
    ensures c !in r
    ensures r <= s
    ensures |r| < |s| ==> s[|r|] == c
  {
    s[..IndexOf(s, c)]
  }

  /** The text after the first `c` (empty when there is none). */
  function AfterFirst(s: string, c: char): (r: string)
    ensures c in s ==> s == BeforeFirst(s, c) + [c] + r
    ensures c !in s ==> r == ""
  {
    var i := IndexOf(s, c);
    if i < |s| then (assert s == s[..i] + [c] + s[i + 1..]; s[i + 1..]) else ""
  }

  /** Text without `c`, then `c`, then anything: cutting at the first `c`
      gives the two parts back. */
  lemma FirstSeparator(a: string, c: char, b: string)
    requires c !in a
    ensures BeforeFirst(a + [c] + b, c) == a
    ensures AfterFirst(a + [c] + b, c) == b
  {
    var s := a + [c] + b;
    assert forall j :: 0 <= j < |a| ==> s[j] == a[j];
    assert s[|a|] == c;
    assert IndexOf(s, c) == |a|;
    assert s[|a| + 1..] == b;
  }

  /** Text without `c` is its own text before the first `c`. */
  lemma NoSeparator(s: string, c: char)
    requires c !in s
    ensures BeforeFirst(s, c) == s
    ensures AfterFirst(s, c) == ""
  {
  }

  /** The first piece of a split is the text before the first separator. */
  lemma SplitHead(s: string, c: char)
    ensures Split(s, c)[0] == s[..IndexOf(s, c)]
  {
  }

  /** The pieces after the first are the split of the text after the first
      separator. */
  lemma SplitTail(s: string, c: char)
    requires c in s
    ensures Split(s, c)[1..] == Split(s[IndexOf(s, c) + 1..], c)
  {
  }

  /** Characters `String.prototype.trim` removes: ECMAScript WhiteSpace and
      LineTerminator code points. */
  predicate IsWhitespace(c: char) {
    var n := c as int;
    n == 0x09 || n == 0x0A || n == 0x0B || n == 0x0C || n == 0x0D || n == 0x20
    || n == 0xA0 || n == 0x1680 || (0x2000 <= n <= 0x200A) || n == 0x2028
    || n == 0x2029 || n == 0x202F || n == 0x205F || n == 0x3000 || n == 0xFEFF
  }

  /** Every character of `s` is white space (the empty string included). */
  ghost predicate IsBlank(s: string) {
    forall i :: 0 <= i < |s| ==> IsWhitespace(s[i])
  }

  function TrimStart(s: string): string {
    if s != [] && IsWhitespace(s[0]) then TrimStart(s[1..]) else s
  }

  function TrimEnd(s: string): string {
    if s != [] && IsWhitespace(s[|s| - 1]) then TrimEnd(s[..|s| - 1]) else s
  }

  /** `s.trim()`. */
  function Trim(s: string): string {
    TrimEnd(TrimStart(s))
  }

  lemma {:induction false} TrimStartEmptyIff(s: string)
    ensures TrimStart(s) == "" <==> IsBlank(s)
    decreases |s|
  {
    if s != [] && IsWhitespace(s[0]) {
      TrimStartEmptyIff(s[1..]);
      assert forall i :: 1 <= i < |s| ==> s[i] == s[1..][i - 1];
    }
  }

  lemma {:induction false} TrimEndNonEmpty(s: string)
    requires s != [] && !IsWhitespace(s[0])
    ensures TrimEnd(s) != ""
    decreases |s|
  {
    if IsWhitespace(s[|s| - 1]) {
      TrimEndNonEmpty(s[..|s| - 1]);
    }
  }

  /** `!s.trim()` holds exactly when `s` is blank. */
  lemma TrimEmptyIff(s: string)
    ensures Trim(s) == "" <==> IsBlank(s)
  {
    TrimStartEmptyIff(s);
    var t := TrimStart(s);
    if t != "" {
      assert !IsWhitespace(t[0]) by { TrimStartShape(s); }
      TrimEndNonEmpty(t);
    }
  }

  lemma {:induction false} TrimStartShape(s: string)
    ensures TrimStart(s) != "" ==> !IsWhitespace(TrimStart(s)[0])
    decreases |s|
  {
    if s != [] && IsWhitespace(s[0]) {
      TrimStartShape(s[1..]);
    }
  }

  /** One decimal digit. */
  function DigitChar(d: nat): char
    requires d < 10
  {
    "0123456789"[d]
  }

  predicate IsDigit(c: char) {
    '0' <= c <= '9'
  }

  /** The decimal rendering `${n}` of a non-negative integer. */
  function NatToString(n: nat): (r: string)
    ensures |r| >= 1
    ensures forall i :: 0 <= i < |r| ==> IsDigit(r[i])
  {
    if n < 10 then [DigitChar(n)] else NatToString(n / 10) + [DigitChar(n % 10)]
  }

  /** Reads back a string of decimal digits. */
  function ParseDigits(s: string): nat
    requires forall i :: 0 <= i < |s| ==> IsDigit(s[i])
  {
    if s == [] then 0 else 10 * ParseDigits(s[..|s| - 1]) + DigitValue(s[|s| - 1])
  }

  function DigitValue(c: char): nat
    requires IsDigit(c)
  {
    c as int - '0' as int
  }

  /** A digit character reads back as its digit. */
  lemma DigitCharValue(d: nat)
    requires d < 10
    ensures IsDigit(DigitChar(d)) && DigitValue(DigitChar(d)) == d
  {
    var digits := "0123456789";
    assert digits[d] as int == '0' as int + d by {
      assert forall j :: 0 <= j < 10 ==> digits[j] as int == '0' as int + j;
    }
  }

  /** Rendering a number in decimal loses nothing. */
  lemma {:induction false} ParseNatToString(n: nat)
    ensures ParseDigits(NatToString(n)) == n
  {
    if n >= 10 {
      var r := NatToString(n);
      var d := n % 10;
      assert r == NatToString(n / 10) + [DigitChar(d)];
      assert r[..|r| - 1] == NatToString(n / 10);
      assert DigitValue(r[|r| - 1]) == d by { DigitCharValue(d); }
      ParseNatToString(n / 10);
    } else {
      DigitCharValue(n);
    }
  }
}

=== FILE: transactions.dfy ===
/** The transaction history page: the user's purchases, newest first, each
    joined with the note it bought; purchases of notes that no longer exist are
    dropped. */
module Transactions {
  import opened Common
  import Seqs

  /** A field value of a stored document. */
  datatype Value = Text(text: string) | Number(number: int) | Time(time: Timestamp) | OtherValue

  /** The data of a document: its fields by name. */
  type Fields = map<string, Value>

  /** A document of the `purchases` collection, with its id. */
  datatype Purchase = Purchase(id: string, userId: string, noteId: string, purchasedAt: Timestamp)

  /** The three fields the join writes over the note's own. */
  const JoinedKeys: set<string> := {"id", "purchaseId", "purchasedAt"}

  /** `{ ...noteSnap.data(), id: noteSnap.id, purchaseId: purchaseDoc.id,
      purchasedAt: purchaseData.purchasedAt }`: later keys of an object
      literal override earlier ones, so the purchase's values win. */
  function Combine(noteData: Fields, p: Purchase): (t: Fields)
    ensures t.Keys == noteData.Keys + JoinedKeys
    ensures t["id"] == Text(p.noteId)
    ensures t["purchaseId"] == Text(p.id)
    ensures t["purchasedAt"] == Time(p.purchasedAt)
    ensures forall k :: k in noteData && k !in JoinedKeys ==> t[k] == noteData[k]
  {
    noteData + map["id" := Text(p.noteId), "purchaseId" := Text(p.id), "purchasedAt" := Time(p.purchasedAt)]
  }

  /** The per-purchase step of `Promise.all`: the combined record, or null
      when the note document does not exist. */
  function Lookup(notes: map<string, Fields>, p: Purchase): Option<Fields> {
    if p.noteId in notes then Some(Combine(notes[p.noteId], p)) else None
  }

  /** `.filter(t => t !== null)` */
  function DropNulls(xs: seq<Option<Fields>>): (r: seq<Fields>)
    ensures |r| <= |xs|
  {
    if xs == [] then []
    else (if xs[0].Some? then [xs[0].value] else []) + DropNulls(xs[1..])
  }

  /** The join the page performs on the query's snapshot. */
  function Join(snapshot: seq<Purchase>, notes: map<string, Fields>): (r: seq<Fields>)
    ensures |r| <= |snapshot|
  {
    DropNulls(Seqs.Map(snapshot, (p: Purchase) => Lookup(notes, p)))
  }

  /** The purchase's note exists. */
  function NoteExists(notes: map<string, Fields>): Purchase -> bool {
    (p: Purchase) => p.noteId in notes
  }

  /** Combining a purchase with its note, where it exists. */
  function CombineWith(notes: map<string, Fields>): Purchase -> Fields {
    (p: Purchase) => if p.noteId in notes then Combine(notes[p.noteId], p) else map[]
  }

  /** The join is: keep the purchases whose note exists, in order, and combine
      each with its note. So each such purchase yields exactly one transaction
      and the others none. */
  lemma {:induction false} JoinIsFilterThenCombine(snapshot: seq<Purchase>, notes: map<string, Fields>)
    ensures Join(snapshot, notes)
         == Seqs.Map(Seqs.Filter(snapshot, NoteExists(notes)), CombineWith(notes))
  {
    var combine := CombineWith(notes);
    if snapshot != [] {
      JoinIsFilterThenCombine(snapshot[1..], notes);
      assert Seqs.Map(snapshot, (p: Purchase) => Lookup(notes, p))[1..] == Seqs.Map(snapshot[1..], (p: Purchase) => Lookup(notes, p));
      var kept := Seqs.Filter(snapshot[1..], NoteExists(notes));
      if snapshot[0].noteId in notes {
        assert Seqs.Map([snapshot[0]] + kept, combine) == [combine(snapshot[0])] + Seqs.Map(kept, combine);
      }
    }
  }

  /** When every note exists, the join yields one transaction per purchase, at
      the same position. */
  lemma AllNotesPresent(snapshot: seq<Purchase>, notes: map<string, Fields>)
    requires forall k :: 0 <= k < |snapshot| ==> snapshot[k].noteId in notes
    ensures |Join(snapshot, notes)| == |snapshot|
    ensures forall k :: 0 <= k < |snapshot| ==> Join(snapshot, notes)[k] == Combine(notes[snapshot[k].noteId], snapshot[k])
  {
    JoinIsFilterThenCombine(snapshot, notes);
    Seqs.FilterKeepsAll(snapshot, NoteExists(notes));
  }

  /** When no note exists, the join is empty. */
  lemma NoNotesPresent(snapshot: seq<Purchase>, notes: map<string, Fields>)
    requires forall k :: 0 <= k < |snapshot| ==> snapshot[k].noteId !in notes
    ensures Join(snapshot, notes) == []
  {
    JoinIsFilterThenCombine(snapshot, notes);
    Seqs.FilterKeepsNone(snapshot, NoteExists(notes));
  }

  /** Joining two runs of purchases is joining each: transactions appear in
      the order of their purchases. */
  lemma JoinAppend(a: seq<Purchase>, b: seq<Purchase>, notes: map<string, Fields>)
    ensures Join(a + b, notes) == Join(a, notes) + Join(b, notes)
  {
    var combine := CombineWith(notes);
    JoinIsFilterThenCombine(a + b, notes);
    JoinIsFilterThenCombine(a, notes);
    JoinIsFilterThenCombine(b, notes);
    Seqs.FilterAppend(a, b, NoteExists(notes));
    var fa := Seqs.Filter(a, NoteExists(notes));
    var fb := Seqs.Filter(b, NoteExists(notes));
    Seqs.MapAppend(fa, fb, combine);
  }

  /** Every transaction comes from one purchase of the snapshot whose note
      exists, with that purchase's id and time. */
  lemma {:induction false} JoinOrigins(snapshot: seq<Purchase>, notes: map<string, Fields>, t: Fields)
    requires t in Join(snapshot, notes)
    ensures exists p :: p in snapshot && p.noteId in notes && t == Combine(notes[p.noteId], p)
  {
    assert snapshot != [];
    var rest := Join(snapshot[1..], notes);
    assert Seqs.Map(snapshot, (p: Purchase) => Lookup(notes, p))[1..] == Seqs.Map(snapshot[1..], (p: Purchase) => Lookup(notes, p));
    if t in rest {
      JoinOrigins(snapshot[1..], notes, t);
      var p :| p in snapshot[1..] && p.noteId in notes && t == Combine(notes[p.noteId], p);
      assert p in snapshot;
    } else {
      assert snapshot[0].noteId in notes && t == Combine(notes[snapshot[0].noteId], snapshot[0]);
    }
  }

  /** Purchases newest first, as `orderBy("purchasedAt", "desc")` returns them. */
  ghost predicate NewestFirst(snapshot: seq<Purchase>) {
    forall i, j :: 0 <= i < j < |snapshot| ==> snapshot[i].purchasedAt.millis >= snapshot[j].purchasedAt.millis
  }

  /** The time a joined record carries. */
  ghost function TimeOf(t: Fields): int {
    if "purchasedAt" in t && t["purchasedAt"].Time? then t["purchasedAt"].time.millis else 0
  }

  /** Transactions newest first. */
  ghost predicate TransactionsNewestFirst(ts: seq<Fields>) {
    forall i, j :: 0 <= i < j < |ts| ==> TimeOf(ts[i]) >= TimeOf(ts[j])
  }

  /** The join keeps the query's newest-first order. */
  lemma {:induction false} JoinKeepsOrder(snapshot: seq<Purchase>, notes: map<string, Fields>)
    requires NewestFirst(snapshot)
    ensures TransactionsNewestFirst(Join(snapshot, notes))
  {
    if snapshot != [] {
      var rest := Join(snapshot[1..], notes);
      JoinKeepsOrder(snapshot[1..], notes);
      assert Seqs.Map(snapshot, (p: Purchase) => Lookup(notes, p))[1..] == Seqs.Map(snapshot[1..], (p: Purchase) => Lookup(notes, p));
      forall t | t in rest
        ensures TimeOf(t) <= snapshot[0].purchasedAt.millis
      {
        JoinOrigins(snapshot[1..], notes, t);
      }
    }
  }

  /** The snapshot is what the page's query returns: the user's purchases of
      the whole collection, newest first. */
  ghost predicate IsPurchaseQuery(all: seq<Purchase>, uid: string, snapshot: seq<Purchase>) {
    && multiset(snapshot) == multiset(Seqs.Filter(all, (p: Purchase) => p.userId == uid))
    && NewestFirst(snapshot)
  }

  /** On a snapshot of the page's query, every transaction is one of the
      user's own purchases, and the list is newest first. */
  lemma QueryThenJoin(all: seq<Purchase>, uid: string, snapshot: seq<Purchase>, notes: map<string, Fields>)
    requires IsPurchaseQuery(all, uid, snapshot)
    ensures TransactionsNewestFirst(Join(snapshot, notes))
    ensures forall t :: t in Join(snapshot, notes) ==>
              exists p :: p in all && p.userId == uid && p.noteId in notes && t == Combine(notes[p.noteId], p)
  {
    JoinKeepsOrder(snapshot, notes);
    forall t | t in Join(snapshot, notes)
      ensures exists p :: p in all && p.userId == uid && p.noteId in notes && t == Combine(notes[p.noteId], p)
    {
      JoinOrigins(snapshot, notes, t);
      var p :| p in snapshot && p.noteId in notes && t == Combine(notes[p.noteId], p);
      assert p in multiset(snapshot);
      Seqs.FilterMembership(all, (q: Purchase) => q.userId == uid, p);
    }
  }

  /** What the query returned: its snapshot, or a failure. */
  datatype QueryOutcome = QueryFailed | Snapshot(purchases: seq<Purchase>)

  /** The page state `fetchTransactions` changes. */
  datatype PageState = PageState(transactions: seq<Fields>, isLoading: bool, error: Option<string>)

  const LoadError := "Failed to load transaction history."

  /** `fetchTransactions`, run when a user is present. `readFailed` says
      whether one of the note reads threw, which rejects the whole
      `Promise.all`. */
  function FetchTransactions(
    s: PageState, user: Option<User>, query: QueryOutcome,
    notes: map<string, Fields>, readFailed: bool): (r: PageState)
    ensures user.None? ==> r == s
    ensures user.Some? ==> !r.isLoading
    ensures user.Some? && query.Snapshot? && query.purchases == [] ==> r == PageState([], false, None)
    ensures user.Some? && query.Snapshot? && !readFailed ==>
              r == PageState(Join(query.purchases, notes), false, None)
              && |r.transactions| <= |query.purchases|
    ensures user.Some? && (query.QueryFailed? || (query.purchases != [] && readFailed)) ==>
              r == s.(isLoading := false, error := Some(LoadError))
  {
    if user.None? then s
    else match query
      case QueryFailed => s.(isLoading := false, error := Some(LoadError))
      case Snapshot(purchases) =>
        if purchases == [] then PageState([], false, None)
        else if readFailed then s.(isLoading := false, error := Some(LoadError))
        else PageState(Join(purchases, notes), false, None)
  }
}

=== FILE: upload.dfy ===
/** The upload page: the PDF check on the chosen file, the field guard, and
    the order of the three remote steps (file upload, download URL, note
    record). */
module Upload {
  import opened Common
  import opened Strings

  /** A chosen file: its name and the MIME type the browser reports. */
  datatype File = File(name: string, mimeType: string)

  /** The form state; `price` is the text of the number input. */
  datatype Form = Form(
    title: string,
    course: string,
    price: string,
    file: Option<File>,
    isUploading: bool,
    error: Option<string>,
    successMessage: Option<string>)

  const PdfType := "application/pdf"
  const InvalidTypeError := "Invalid file type. Please select a PDF."
  const MissingFieldsError := "Please fill in all fields and select a PDF file."
  const UploadFailedError := "Failed to upload note. Please try again."
  const UploadedMessage := "Note uploaded successfully! Redirecting..."

  /** `handleFileChange`; `files` is the input's file list, empty when there
      is none. Only the first file counts. A PDF is kept and clears the error;
      anything else clears the selection and sets the invalid-type error. */
  function FileChange(f: Form, files: seq<File>): (r: Form)
    ensures files == [] ==> r == f
    ensures files != [] ==> (r.file == Some(files[0]) <==> files[0].mimeType == PdfType)
    ensures files != [] ==> (r.error == None <==> files[0].mimeType == PdfType)
    ensures files != [] && files[0].mimeType != PdfType ==> r.file == None && r.error == Some(InvalidTypeError)
    ensures r.title == f.title && r.course == f.course && r.price == f.price && r.isUploading == f.isUploading
    ensures r.successMessage == f.successMessage
  {
    if files == [] then f
    else if files[0].mimeType == PdfType then f.(file := Some(files[0]), error := None)
    else f.(error := Some(InvalidTypeError), file := None)
  }

  /** The record added to the `notes` collection. `price` is the form text
      the page converts with `Number(...)`. */
  datatype NoteDoc = NoteDoc(
    title: string,
    course: string,
    price: string,
    author: Option<string>,
    authorId: string,
    rating: int,
    pdfUrl: string,
    createdAt: WrittenTime)

  /** A remote step that took effect. */
  datatype Effect = FileUploaded(path: string, file: File) | NoteAdded(doc: NoteDoc)

  /** What one submission did; `redirect` is the navigation scheduled after
      the success message. */
  datatype Step = Step(after: Form, effects: seq<Effect>, redirect: Option<Route>)

  /** `notes/${user.uid}/${Date.now()}_${file.name}` */
  function StoragePath(uid: string, now: nat, fileName: string): string {
    "notes/" + uid + "/" + NatToString(now) + "_" + fileName
  }

  /** A digit string followed by '_' and a name splits back at the first '_'. */
  lemma StampThenName(stamp: string, fileName: string)
    requires forall i :: 0 <= i < |stamp| ==> IsDigit(stamp[i])
    ensures BeforeFirst(stamp + "_" + fileName, '_') == stamp
    ensures AfterFirst(stamp + "_" + fileName, '_') == fileName
  {
    assert '_' !in stamp by {
      assert forall i :: 0 <= i < |stamp| ==> stamp[i] != '_';
    }
    FirstSeparator(stamp, '_', fileName);
  }

  /** The storage path reads back: for a uid and file name without '/', its
      '/'-separated segments are "notes", the uid, and the time stamp joined to
      the file name by the first '_', from which both can be recovered. */
  lemma StoragePathParts(uid: string, now: nat, fileName: string)
    requires '/' !in uid && '/' !in fileName
    ensures var last := NatToString(now) + "_" + fileName;
            && Split(StoragePath(uid, now, fileName), '/') == ["notes", uid, last]
            && BeforeFirst(last, '_') == NatToString(now)
            && ParseDigits(NatToString(now)) == now
            && AfterFirst(last, '_') == fileName
  {
    var stamp := NatToString(now);
    var last := stamp + "_" + fileName;
    assert '/' !in stamp;
    assert '/' !in last by {
      assert forall i :: 0 <= i < |last| ==> last[i] == (if i < |stamp| then stamp[i] else if i == |stamp| then '_' else fileName[i - |stamp| - 1]);
    }
    var parts := ["notes", uid, last];
    assert parts[1..][1..] == [last];
    assert Join(parts[1..], '/') == uid + "/" + last;
    assert Join(parts, '/') == "notes" + "/" + (uid + "/" + last);
    assert StoragePath(uid, now, fileName) == "notes" + "/" + (uid + "/" + last);
    SplitJoin(parts, '/');
    StampThenName(stamp, fileName);
    ParseNatToString(now);
  }

  /** The guard `!user || !file || !title || !course || !price`. */
  predicate MissingField(f: Form, user: Option<User>) {
    user.None? || f.file.None? || f.title == "" || f.course == "" || f.price == ""
  }

  /** `handleSubmit`. `now` is `Date.now()`; `uploaded`, `url` and `added` are
      the outcomes of the upload, the download-URL request and the record
      write. A missing field sets the error and touches nothing remote. The
      record is written only after the upload and the URL both succeeded, and
      describes a note with rating 0 owned by the user. */
  function Submit(f: Form, user: Option<User>, now: nat, uploaded: bool, url: Option<string>, added: bool): (step: Step)
    ensures MissingField(f, user) ==> step == Step(f.(error := Some(MissingFieldsError)), [], None)
    ensures !MissingField(f, user) ==> !step.after.isUploading
    ensures step.after.title == f.title && step.after.course == f.course && step.after.price == f.price && step.after.file == f.file
    ensures !MissingField(f, user) && uploaded && url.Some? && added ==>
              step.effects == [FileUploaded(StoragePath(user.value.uid, now, f.file.value.name), f.file.value),
                               NoteAdded(NoteDoc(f.title, f.course, f.price, user.value.email, user.value.uid, 0, url.value, ServerTime))]
    ensures !MissingField(f, user) && !uploaded ==> step.effects == []
    ensures !MissingField(f, user) && uploaded && !(url.Some? && added) ==>
              step.effects == [FileUploaded(StoragePath(user.value.uid, now, f.file.value.name), f.file.value)]
    ensures step.redirect == Some(DashboardPage) <==> !MissingField(f, user) && uploaded && url.Some? && added
    ensures step.redirect.Some? ==> step.after.error == None && step.after.successMessage == Some(UploadedMessage)
    ensures !MissingField(f, user) && !(uploaded && url.Some? && added) ==>
              step.after.error == Some(UploadFailedError) && step.after.successMessage == None
  {
    if MissingField(f, user) then Step(f.(error := Some(MissingFieldsError)), [], None)
    else
      var u := user.value;
      var file := f.file.value;
      var started := f.(isUploading := true, error := None, successMessage := None);
      var failed := started.(error := Some(UploadFailedError), isUploading := false);
      if !uploaded then Step(failed, [], None)
      else
        var upload := FileUploaded(StoragePath(u.uid, now, file.name), file);
        if url.None? then Step(failed, [upload], None)
        else
          var doc := NoteDoc(f.title, f.course, f.price, u.email, u.uid, 0, url.value, ServerTime);
          if !added then Step(failed, [upload], None)
          else Step(started.(successMessage := Some(UploadedMessage), isUploading := false),
                    [upload, NoteAdded(doc)], Some(DashboardPage))
  }
}
